=== FILE: README.md ===
# Vocabulary game core, modelled in Dafny

This project models the logic of the vocabulary learning game in
`src/components/VocabularyMasterGame.js`, a React component, and proves
properties of it. The logic covers:

- **Word-list parser** (`parseWordList`). Each line holds one record:
  `word|partOfSpeech|definition|pronunciation|example|theme`. Fields are
  trimmed and defaults filled in. Lines whose word is blank are dropped.
- **Theme index** (`generateThemes`). It maps each theme to the words filed
  under it, in list order.
- **Challenge builders and `generateQuestion`.** These cover the seven
  activities: spelling, meaning, grammar, story, themes, quiz and flashcards.
- **Scoring half of `checkAnswer`.**
- **Session handlers.** These are `handleWordListSubmit`, `startGame`,
  `nextQuestion`, `toggleThemeAnswer`, and the score and level update of
  `checkAnswer`.

Modules:

| file | module | what it holds |
|---|---|---|
| `text.dfy` | `Text` | JavaScript `trim`, `split` on one character, ASCII `toLowerCase`, and `a \|\| b` on strings |
| `seqs.dfy` | `Seqs` | `Array.prototype.filter`, duplicate-free sequences, and the random reordering |
| `wordlist.dfy` | `WordList` | the word record, the parser (a loop) and its specification |
| `options.dfy` | `Options` | the optional value (`null` in the source) |
| `themes.dfy` | `ThemeIndexing` | the theme index (a loop over a dictionary) and its specification; also the code as written, which throws on some theme names (see Findings) |
| `generators.dfy` | `Generators` | the challenge builders, word forms, story prompts (a loop) and the question generator |
| `scoring.dfy` | `Scoring` | the points and correctness rule for each activity |
| `session.dfy` | `Session` | the class `GameSession` with one method per handler, and the level and score arithmetic |

Randomness is an input, the `Draw(pick, seed)` datatype:

- `Math.floor(Math.random() * n)` becomes the candidate at `pick % n`, so
  every candidate is reachable.
- The reordering `sort(() => Math.random() - 0.5)` becomes `Shuffle(s, seed)`.
  It always returns a rearrangement of `s`, and by `Seqs.ShuffleOnto` every
  rearrangement is the result of some seed.

## Model

| member | source | states |
|---|---|---|
| Text.Split | src/components/VocabularyMasterGame.js:19 | `split` with a one-character separator: at least one piece, no piece holds the separator, and joining the pieces gives back the input |
| Text.SplitJoin | src/components/VocabularyMasterGame.js:23 | splitting undoes joining, for pieces free of the separator |
| Text.TrimIsTrimmed | src/components/VocabularyMasterGame.js:23 | a trimmed field neither starts nor ends with white space |
| Text.TrimCutsSpace | src/components/VocabularyMasterGame.js:19 | `trim` keeps a middle slice of its input and removes only white space |
| Text.TrimEmptyIffBlank | src/components/VocabularyMasterGame.js:19 | a line is dropped by `filter(line => line.trim())` exactly when it is all white space |
| Text.ToLower | src/components/VocabularyMasterGame.js:241 | lower-casing keeps the length, maps each character to its lower-case form and leaves no upper-case ASCII letter |
| Text.ToLowerIdempotent | src/components/VocabularyMasterGame.js:241 | lower-casing twice is lower-casing once |
| Text.OrElse | src/components/VocabularyMasterGame.js:25-30 | `s \|\| fallback` is `s` when `s` is non-empty and the fallback otherwise |
| Seqs.Filter | src/components/VocabularyMasterGame.js:19 | `filter` keeps exactly the elements that pass, and is never longer than its input |
| Seqs.FilterDistinct | src/components/VocabularyMasterGame.js:304 | filtering a duplicate-free list keeps it duplicate-free |
| Seqs.Shuffle | src/components/VocabularyMasterGame.js:57 | the random reordering always returns a rearrangement of its input (same length, same multiset) |
| Seqs.ShuffleOnto | src/components/VocabularyMasterGame.js:57 | every rearrangement of the input is produced by some draw |
| Seqs.DistinctPermutation | src/components/VocabularyMasterGame.js:90 | a rearrangement of a duplicate-free list is duplicate-free |
| WordList.LineEntries | src/components/VocabularyMasterGame.js:23-35 | one line gives at most one record, and that record is well formed: non-empty word and theme, every field trimmed |
| WordList.FieldsTrimmed | src/components/VocabularyMasterGame.js:23-31 | every field built from the trimmed pieces is trimmed, and the theme is never blank |
| WordList.ParseEntries | src/components/VocabularyMasterGame.js:22-36 | the records of a list of lines are no more than the lines, and each is well formed |
| WordList.ParseWordList | src/components/VocabularyMasterGame.js:18-39 | the parsing loop returns the records of the non-blank lines: at most one per line, all well formed |
| WordList.ParseEntriesAppend | src/components/VocabularyMasterGame.js:22-36 | records come out in line order: the records of two line lists laid end to end are their records laid end to end |
| WordList.LineRecord | src/components/VocabularyMasterGame.js:23-33 | a line yields a record exactly when its first piece is not blank; each field is the trimmed piece at its position, or `""` when missing or empty, except the theme, which is then `general` |
| WordList.ExtraFieldsIgnored | src/components/VocabularyMasterGame.js:23-31 | pieces after the sixth do not change the record |
| WordList.OneRecordPerLine | src/components/VocabularyMasterGame.js:22-36 | when every line has a non-blank word there is exactly one record per line, the k-th from the k-th line |
| WordList.RecordLineRoundTrip | src/components/VocabularyMasterGame.js:23-35 | a well-formed record written as one `\|`-separated line parses back to itself |
| WordList.ParseLinesOfRecords | src/components/VocabularyMasterGame.js:22-36 | parsing the lines of well-formed records gives the records back |
| WordList.SerializeRoundTrip | src/components/VocabularyMasterGame.js:18-39 | well-formed records written one per line and parsed back come out unchanged and in order |
| ThemeIndexing.AddWord | src/components/VocabularyMasterGame.js:45-48 | one step adds the theme as a key, appends the word to the end of its bucket (new and empty the first time), and leaves every other bucket alone |
| ThemeIndexing.ThemeIndexSpec | src/components/VocabularyMasterGame.js:42-51 | the keys of the index are exactly the themes of the list, and each bucket holds the words of its theme in list order |
| ThemeIndexing.GenerateThemes | src/components/VocabularyMasterGame.js:42-51 | the loop updating the dictionary builds the theme index |
| ThemeIndexing.ThemeOrder | src/components/VocabularyMasterGame.js:197 | the key order (themes by first appearance) lists each theme of the list exactly once |
| ThemeIndexing.ThemeOrderIsKeyOrder | src/components/VocabularyMasterGame.js:197 | the key order lists exactly the keys of the index, each once |
| ThemeIndexing.BucketsPartition | src/components/VocabularyMasterGame.js:42-51 | the bucket lengths sum to the number of words |
| ThemeIndexing.WordInItsBucket | src/components/VocabularyMasterGame.js:44-48 | every word of the list is in the bucket of its own theme |
| ThemeIndexing.AsWrittenAgrees | src/components/VocabularyMasterGame.js:45-48 | the code as written gives the same index unless some theme is an `Object.prototype` member name, and then it throws |
| ThemeIndexing.ConstructorThemeThrows | src/components/VocabularyMasterGame.js:45-48 | a word with theme `constructor` makes the code as written throw, while the index files it normally |
| Generators.SpellingChallengeOf | src/components/VocabularyMasterGame.js:55-61 | a spelling challenge's answer is the word, and its scrambled letters are a rearrangement of the word. Its hint is never blank: the definition, or `Think of a word that means: <word>` when that is blank. Its pronunciation is the word's |
| Generators.SpellingChallenges | src/components/VocabularyMasterGame.js:54-62 | one spelling challenge per word, in list order |
| Generators.WrongOptions | src/components/VocabularyMasterGame.js:67-70 | always three wrong meaning options. With at least three other entries (word different from the asked word), they are the definitions, or the words when a definition is blank, of the first three such entries, in list order. Otherwise they are the three placeholders `Option A`, `Option B`, `Option C` |
| Generators.MeaningChallengeOf | src/components/VocabularyMasterGame.js:66-80 | a meaning challenge has four options: the correct meaning and the three wrong options, in some order |
| Generators.MeaningChallenges | src/components/VocabularyMasterGame.js:65-81 | one meaning challenge per word, in list order |
| Generators.WordForms | src/components/VocabularyMasterGame.js:96-106 | two forms for a noun, three for a verb or an adjective, none otherwise; never more than three; each extends the word; all different; none equal to the word |
| Generators.Sentence | src/components/VocabularyMasterGame.js:88 | the grammar sentence reads `The _____ is very important.` for a noun and `The _____ was very important.` otherwise |
| Generators.GrammarChallengeOf | src/components/VocabularyMasterGame.js:85-92 | a grammar challenge's options are the word and its forms in some order, and the answer is the word. Its sentence uses `is` for a noun and `was` otherwise |
| Generators.GrammarChallenges | src/components/VocabularyMasterGame.js:84-93 | one grammar challenge per word, in list order |
| Generators.GrammarOptionsDistinct | src/components/VocabularyMasterGame.js:90 | no grammar option appears twice |
| Generators.StoryPrompts | src/components/VocabularyMasterGame.js:109-120 | there are ceil(n/5) story prompts |
| Generators.GenerateStoryPrompts | src/components/VocabularyMasterGame.js:109-120 | the loop pushing one prompt per group of five builds the story prompts |
| Generators.StoryPromptCount | src/components/VocabularyMasterGame.js:111 | the prompt count is the least number of groups of five that holds every word |
| Generators.StoryGroups | src/components/VocabularyMasterGame.js:112-116 | every group holds one to five words, starts at word 5i, and takes the theme of its first word |
| Generators.StoryPrefixCover | src/components/VocabularyMasterGame.js:111-115 | the first k prompts hold, in order, the words of the first 5k entries |
| Generators.StoryPromptsCover | src/components/VocabularyMasterGame.js:111-115 | the prompts' words laid end to end are the word list, in order |
| Generators.QuizItemOf | src/components/VocabularyMasterGame.js:124-133 | a quiz item's answer is the definition, or `A <part of speech or word> related to <word>` when blank. Its four options are that answer and the three fixed distractors (`The opposite of`, `A type of`, `Something similar to` the word), in some order |
| Generators.QuizItems | src/components/VocabularyMasterGame.js:123-134 | one quiz item per word, in list order |
| Generators.FlashcardOf | src/components/VocabularyMasterGame.js:138-146 | a card's front is the word; definition and example are never blank and are the word's own when it has them; pronunciation and part of speech are as entered |
| Generators.FlashcardSet | src/components/VocabularyMasterGame.js:137-147 | one flashcard per word, in list order |
| Generators.WrongWords | src/components/VocabularyMasterGame.js:200 | the words of the first two entries whose word is outside the chosen bucket, in list order. There are exactly min(2, number of such entries) of them, so fewer only when fewer exist |
| Generators.ThemesQuestion | src/components/VocabularyMasterGame.js:197-209 | the theme is the key at the picked position, so every key can be picked. The answer is its bucket (empty when the theme is unknown). The displayed words are a rearrangement of the bucket plus the wrong words |
| Generators.ThemesAnswerable | src/components/VocabularyMasterGame.js:199-201 | every word of the bucket is displayed |
| Generators.ThemesBucketSound | src/components/VocabularyMasterGame.js:197-199 | with the index and key order of the word list, the picked theme is one of the list's themes, and its bucket is non-empty and holds exactly that theme's words |
| Generators.ThemesQuestionSound | src/components/VocabularyMasterGame.js:196-209 | with the index and key order of the word list, the theme is one of the list's themes, its bucket is non-empty and holds exactly the words of that theme, and the extra words are at most two and outside the bucket |
| Generators.SpellingQuestion | src/components/VocabularyMasterGame.js:153-163 | the spelling question's answer is the picked word, and its scramble rearranges it. It shows `Hint: ` followed by that word's hint, and the word's pronunciation |
| Generators.MeaningQuestion | src/components/VocabularyMasterGame.js:165-174 | the meaning question asks about the picked word. The answer it is graded against is that word's meaning. Its four options are that meaning and the word's three wrong options, in some order |
| Generators.GrammarQuestion | src/components/VocabularyMasterGame.js:176-184 | the grammar question's answer is the picked word, and its options are that word and its forms in some order. Its question is that word's sentence |
| Generators.StoryQuestion | src/components/VocabularyMasterGame.js:186-194 | the story question shows the words of the picked group of five (one to five words), the theme of the group's first word (`general` when blank) and the fixed prompt |
| Generators.QuizQuestion | src/components/VocabularyMasterGame.js:211-219 | the quiz question's answer is the picked word's quiz answer, and its options are that answer and the word's three distractors in some order |
| Generators.FlashcardQuestion | src/components/VocabularyMasterGame.js:221-228 | the flashcard's front is the picked word, and its back is that word's card back: the definition and example with their fallbacks, the pronunciation and the part of speech |
| Generators.KindNamed | src/components/VocabularyMasterGame.js:152-232 | exactly the seven activity names select an activity, each the activity of that name |
| Generators.KindNameRoundTrip | src/components/VocabularyMasterGame.js:152-232 | every activity is selected by its own name |
| Generators.QuestionOfKind | src/components/VocabularyMasterGame.js:152-228 | the question built for an activity has that activity's type and is answerable |
| Generators.GenerateQuestion | src/components/VocabularyMasterGame.js:149-233 | nothing for an empty word list or an unknown kind; otherwise an answerable question whose type is the requested kind |
| Generators.GenerateByName | src/components/VocabularyMasterGame.js:149-233 | asking for an activity by its name gives that activity's question |
| Generators.EveryWordCanBeAsked | src/components/VocabularyMasterGame.js:155 | for spelling, meaning, grammar, quiz and flashcards, the k-th pick asks about the k-th word, so every word can be asked |
| Scoring.ThemesVerdict | src/components/VocabularyMasterGame.js:257-262 | themes points lie between -2 and 5 per selected word. A correct answer selects only bucket words and earns 5 per word of the bucket |
| Scoring.ThemesPoints | src/components/VocabularyMasterGame.js:258-260 | with no word selected twice, the points are 5 per selected bucket word minus 2 per selected word outside the bucket |
| Scoring.Evaluate | src/components/VocabularyMasterGame.js:239-268 | spelling is correct exactly when the lower-cased answers are equal. Spelling, meaning, grammar and quiz earn 10 when correct and 0 otherwise. A story is always correct and earns min(2 x length, 50). Flashcards are always correct and earn 5. Themes points lie between -2 and 5 per selected word |
| Scoring.SpellingIgnoresCase | src/components/VocabularyMasterGame.js:240-243 | spelling answers that agree once lower-cased score alike, and the stored answer in lower case is correct |
| Scoring.SpellingExample | src/components/VocabularyMasterGame.js:240-243 | `CAT` is a correct spelling of `cat` (10 points), and `cot` is not (0 points) |
| Scoring.ExactMatchKinds | src/components/VocabularyMasterGame.js:245-250 | meaning, grammar and quiz answers are correct exactly when they equal the answer |
| Scoring.ExactMatchExample | src/components/VocabularyMasterGame.js:245-250 | for quiz, `Cat` does not match `cat` |
| Scoring.StoryPoints | src/components/VocabularyMasterGame.js:252-255 | a story earns min(2 x length, 50), and a longer story never earns less |
| Scoring.StoryExample | src/components/VocabularyMasterGame.js:252-255 | 10 characters earn 20 points, and 40 characters earn the cap of 50 |
| Scoring.ThemesCountIsSetEquality | src/components/VocabularyMasterGame.js:258-261 | when neither the bucket nor the selection repeats a word, the count test holds exactly when the selected words are the bucket's words |
| Scoring.DuplicateBucketNeverCorrect | src/components/VocabularyMasterGame.js:258-261 | a bucket holding a word twice can never be answered correctly by a selection without repeats |
| Scoring.ThemesExample | src/components/VocabularyMasterGame.js:257-262 | selecting the whole bucket in any order earns 15 and is correct; one right word and one wrong word earn 3 and are not correct |
| Scoring.ThemesFullSelection | src/components/VocabularyMasterGame.js:257-262 | selecting exactly the bucket is correct and earns 5 per word |
| Scoring.GeneratedQuestionsCanBeWon | src/components/VocabularyMasterGame.js:239-262 | the stored answer of an answerable question scores full marks: the word for spelling, an offered option for the choice kinds. For themes, selecting the displayed bucket words does; this selection is reachable in play only when the bucket repeats no word (Session.ThemesWonByToggling), and a bucket that repeats a word can never be won (Scoring.DuplicateBucketNeverCorrect) |
| Session.Advance | src/components/VocabularyMasterGame.js:275-280 | one answer raises the level by one exactly when the old progress is at least 4, and keeps progress within 0..4 |
| Session.LevelEveryFifthAnswer | src/components/VocabularyMasterGame.js:275-280 | after n answers the level has risen by (progress + n) / 5 and the progress is (progress + n) mod 5 |
| Session.Awarded | src/components/VocabularyMasterGame.js:270 | the score never goes down, and rises by exactly the points when they are positive |
| Session.ToggleFlips | src/components/VocabularyMasterGame.js:302-308 | toggling flips the word's membership and leaves every other word as it was |
| Session.ToggleKeepsDistinct | src/components/VocabularyMasterGame.js:302-308 | toggling never selects a word twice |
| Session.ToggleTwice | src/components/VocabularyMasterGame.js:302-308 | toggling an unselected word twice restores the selection |
| Session.ToggleAllAppends | src/components/VocabularyMasterGame.js:302-308 | toggling words in turn, none already selected and none twice, appends them to the selection in order |
| Session.ThemesWonByToggling | src/components/VocabularyMasterGame.js:257-262 | when a themes bucket repeats no word, toggling its words one by one from an empty selection gives a selection without repeats that is correct and earns 5 per word |
| Session.GameSession.constructor | src/components/VocabularyMasterGame.js:4-15 | the initial state: no words, empty index, game `menu`, no question, score 0, level 1, progress 0, nothing selected |
| Session.GameSession.SubmitWordList | src/components/VocabularyMasterGame.js:310-320 | with no parsed word nothing changes; otherwise the word list and its index are replaced; score, level, progress, game, question and selection stay |
| Session.GameSession.StartGame | src/components/VocabularyMasterGame.js:283-293 | with no words nothing changes; otherwise the game becomes the requested one, the question is generated for it, and the selection is cleared; score, level and progress stay |
| Session.GameSession.NextQuestion | src/components/VocabularyMasterGame.js:295-300 | a new question of the current game, selection cleared; score, level and progress stay |
| Session.GameSession.ToggleThemeAnswer | src/components/VocabularyMasterGame.js:302-308 | the selection is toggled and everything else stays |
| Session.GameSession.CheckAnswer | src/components/VocabularyMasterGame.js:235-281 | the answer is scored against the question on screen; the score grows by max(points, 0); level and progress advance as `Advance` says; the session stays valid |

## Left out

- Rendering is not modelled: the JSX, the CSS classes, the view switch (`currentView`) and the progress bar width (lines 322-663).
- Feedback messages are not modelled: the text of `feedback` (lines 271-273, 285, 313, 319) is display only.
- The input bindings `inputText` and `userAnswer` and the flashcard flip `flashcardSide` are left out. The handlers take the text as an argument instead.
- React's `useState` batching is not modelled. Each handler is one atomic update of the session. This is why `checkAnswer`'s two `setGameProgress` calls become the single rule in `Advance`.
- The distribution of `Math.random` is not modelled. Neither is the fact that `sort(() => Math.random() - 0.5)` is not a consistent comparator. A `Draw` stands for the random choices; the model proves only that every result is a rearrangement and that every rearrangement can occur.
- One `seed` drives the reordering of every challenge in a pool. Only the picked challenge is ever shown, so this changes nothing visible.
- `Text.ToLower` lower-cases ASCII letters only. `toLowerCase` also maps the other Unicode upper-case letters.
- JavaScript string lengths, and `split('')` in the spelling scramble, count UTF-16 code units. The model counts characters, so story points and scrambles differ for characters outside the Basic Multilingual Plane.
- `Object.keys` lists integer-like keys first, in numeric order; the model's key order (`ThemeIndexing.ThemeOrder`) is first-appearance order for every key. The pick may land on any position, so the set of possible themes questions is the same.
- `Session.GameSession.CheckAnswer` requires a question on screen. The source reads `currentQuestion.type` and throws when there is none.
- The session keeps the corrected theme index (see Findings). After a throw in `generateThemes`, the word list React would keep is not modelled.
- `Generators.WrongOptions` does not claim the meaning options are distinct. The source does not make them so: two words can share a definition.
- `generateWordForms` pushes into a fresh local array without a loop, so it is modelled as the function `Generators.WordForms`.

## Findings

| source | as written | input that shows it | evidently intended | confidence | as-written member | corrected member |
|---|---|---|---|---|---|---|
| src/components/VocabularyMasterGame.js:43-48 | `themeMap` is a plain object `{}`. A theme named like an `Object.prototype` member (`constructor`, `toString`, `valueOf`, `__proto__`, …) finds the inherited member. That member is truthy, so no bucket is created, and `.push` on it throws a TypeError | the word list `apple\|noun\|a fruit\|\|\|constructor` | every theme name gets its own bucket, e.g. with an object without a prototype or a `Map` | high for the throw; not executed | ThemeIndexing.ConstructorThemeThrows | ThemeIndexing.ThemeIndexSpec |

=== FILE: generators.dfy ===
/** The challenge builders and the question generator. Randomness enters as
    a Draw: `pick` stands for `Math.floor(Math.random() * n)` (the candidate
    at pick % n) and `seed` for the reordering done by
    `sort(() => Math.random() - 0.5)` (read by Seqs.Shuffle). */
module Generators {
  import opened Text
  import opened Seqs
  import opened WordList
  import opened Options
  import opened ThemeIndexing

  datatype Draw = Draw(pick: nat, seed: nat)

  function Pick<T>(pool: seq<T>, pick: nat): (x: T)
    requires |pool| > 0
    ensures x in pool
  {
    pool[pick % |pool|]
  }

  function Min(a: int, b: int): int {
    if a <= b then a else b
  }

  /** The `word` field of each entry, in order. */
  function WordsOf(ws: seq<WordEntry>): (r: seq<string>)
    ensures |r| == |ws|
    ensures forall i :: 0 <= i < |ws| ==> r[i] == ws[i].word
  {
    seq(|ws|, i requires 0 <= i < |ws| => ws[i].word)
  }

  // ---------------------------------------------------------------- spelling

  datatype SpellingChallenge = SpellingChallenge(
    word: string, scrambled: string, hint: string, pronunciation: string, answer: string)

  /** The challenge for one word: its answer is the word, and the scrambled
      letters are a rearrangement of it. */
  function SpellingChallengeOf(w: WordEntry, seed: nat): (c: SpellingChallenge)
    ensures c.word == w.word && c.answer == w.word
    ensures multiset(c.scrambled) == multiset(w.word)
    ensures c.hint != "" && (w.definition != "" ==> c.hint == w.definition)
    ensures w.definition == "" ==> c.hint == "Think of a word that means: " + w.word
    ensures c.pronunciation == w.pronunciation
  {
    SpellingChallenge(w.word, Shuffle(w.word, seed),
                      OrElse(w.definition, "Think of a word that means: " + w.word),
                      OrElse(w.pronunciation, ""), w.word)
  }

  /** generateSpellingChallenges: one challenge per word, in list order. */
  function SpellingChallenges(words: seq<WordEntry>, seed: nat): (cs: seq<SpellingChallenge>)
    ensures |cs| == |words|
    ensures forall i :: 0 <= i < |cs| ==> cs[i] == SpellingChallengeOf(words[i], seed)
  {
    seq(|words|, i requires 0 <= i < |words| => SpellingChallengeOf(words[i], seed))
  }

  // ----------------------------------------------------------------- meaning

  /** The meaning shown for a word: its definition, or a stock phrase naming
      the word when the definition is blank. */
  function MeaningOf(w: WordEntry): string {
    OrElse(w.definition, "A word related to " + w.word)
  }

  /** The test that picks the entries other than the word asked about. */
  function OtherEntry(w: WordEntry): WordEntry -> bool {
    (x: WordEntry) => x.word != w.word
  }

  /** How another entry is offered as a wrong meaning: its definition, or
      its word when the definition is blank. */
  function Describe(x: WordEntry): string {
    OrElse(x.definition, x.word)
  }

  const Placeholders: seq<string> := ["Option A", "Option B", "Option C"]

  /** Three wrong options: when the list holds at least three other entries,
      the descriptions of the first three of them, in list order; otherwise
      three placeholders. */
  function WrongOptions(words: seq<WordEntry>, w: WordEntry): (r: seq<string>)
    ensures |r| == 3
    ensures |Filter(words, OtherEntry(w))| >= 3 ==>
              forall i :: 0 <= i < 3 ==>
                exists x :: x in words && x.word != w.word && r[i] == Describe(x)
    ensures |Filter(words, OtherEntry(w))| >= 3 ==>
              forall i :: 0 <= i < 3 ==> r[i] == Describe(Filter(words, OtherEntry(w))[i])
    ensures |Filter(words, OtherEntry(w))| < 3 ==> r == Placeholders
  {
    var others := Filter(words, OtherEntry(w));
    if |others| >= 3 then
      var r := seq(3, i requires 0 <= i < 3 => Describe(others[i]));
      assert forall i :: 0 <= i < 3 ==> others[i] in words && OtherEntry(w)(others[i]);
      assert forall i :: 0 <= i < 3 ==> others[i].word != w.word && r[i] == Describe(others[i]);
      r
    else Placeholders
  }

  datatype MeaningChallenge = MeaningChallenge(word: string, correctMeaning: string, options: seq<string>)

  /** The challenge for one word: four options, one of them the correct
      meaning and the other three the wrong options, in some order. */
  function MeaningChallengeOf(words: seq<WordEntry>, w: WordEntry, seed: nat): (c: MeaningChallenge)
    ensures c.word == w.word && c.correctMeaning == MeaningOf(w)
    ensures |c.options| == 4 && c.correctMeaning in c.options
    ensures multiset(c.options) == multiset([MeaningOf(w)] + WrongOptions(words, w))
  {
    assert MeaningOf(w) in multiset([MeaningOf(w)] + WrongOptions(words, w));
    MeaningChallenge(w.word, MeaningOf(w), Shuffle([MeaningOf(w)] + WrongOptions(words, w), seed))
  }

  /** generateMeaningChallenges: one challenge per word, in list order. */
  function MeaningChallenges(words: seq<WordEntry>, seed: nat): (cs: seq<MeaningChallenge>)
    ensures |cs| == |words|
    ensures forall i :: 0 <= i < |cs| ==> cs[i] == MeaningChallengeOf(words, words[i], seed)
  {
    seq(|words|, i requires 0 <= i < |words| => MeaningChallengeOf(words, words[i], seed))
  }

  // ----------------------------------------------------------------- grammar

  /** generateWordForms: two inflections for a noun, three for a verb or an
      adjective, none otherwise; each extends the word, no two are equal and
      none is the word itself. */
  function WordForms(word: string, partOfSpeech: string): (forms: seq<string>)
    ensures partOfSpeech == "noun" ==> |forms| == 2
    ensures partOfSpeech == "verb" || partOfSpeech == "adjective" ==> |forms| == 3
    ensures partOfSpeech != "noun" && partOfSpeech != "verb" && partOfSpeech != "adjective"
            ==> forms == []
    ensures |forms| <= 3
    ensures forall i :: 0 <= i < |forms| ==> |forms[i]| > |word| && forms[i][..|word|] == word
    ensures Distinct(forms)
    ensures word !in forms
  {
    var all :=
      if partOfSpeech == "noun" then [word + "s", word + "es"]
      else if partOfSpeech == "verb" then [word + "s", word + "ed", word + "ing"]
      else if partOfSpeech == "adjective" then [word + "er", word + "est", word + "ly"]
      else [];
    assert (word + "er")[|word|] == 'e' && (word + "ly")[|word|] == 'l';
    Take(all, 3)
  }

  datatype GrammarChallenge = GrammarChallenge(sentence: string, answer: string, options: seq<string>)

  /** The grammar sentence: a blank followed by "is" for a noun and "was"
      for anything else. */
  function Sentence(partOfSpeech: string): (r: string)
    ensures r == (if partOfSpeech == "noun" then "The _____ is very important."
                  else "The _____ was very important.")
  {
    var verb := if partOfSpeech == "noun" then "is" else "was";
    assert "The _____ " + verb + " very important." == "The _____ " + (verb + " very important.");
    "The _____ " + verb + " very important."
  }

  /** The challenge for one word: the options are the word and its forms, in
      some order. */
  function GrammarChallengeOf(w: WordEntry, seed: nat): (c: GrammarChallenge)
    ensures c.answer == w.word && c.answer in c.options
    ensures c.sentence == (if w.partOfSpeech == "noun" then "The _____ is very important."
                           else "The _____ was very important.")
    ensures |c.options| == 1 + |WordForms(w.word, w.partOfSpeech)|
    ensures multiset(c.options) == multiset([w.word] + WordForms(w.word, w.partOfSpeech))
  {
    assert w.word in multiset([w.word] + WordForms(w.word, w.partOfSpeech));
    GrammarChallenge(Sentence(w.partOfSpeech), w.word,
                     Shuffle([w.word] + WordForms(w.word, w.partOfSpeech), seed))
  }

  /** generateGrammarChallenges: one challenge per word, in list order. */
  function GrammarChallenges(words: seq<WordEntry>, seed: nat): (cs: seq<GrammarChallenge>)
    ensures |cs| == |words|
    ensures forall i :: 0 <= i < |cs| ==> cs[i] == GrammarChallengeOf(words[i], seed)
  {
    seq(|words|, i requires 0 <= i < |words| => GrammarChallengeOf(words[i], seed))
  }

  /** No grammar option is offered twice. */
  lemma GrammarOptionsDistinct(w: WordEntry, seed: nat)
    ensures Distinct(GrammarChallengeOf(w, seed).options)
  {
    var forms := WordForms(w.word, w.partOfSpeech);
    var all := [w.word] + forms;
    assert forall i :: 1 <= i < |all| ==> all[i] == forms[i - 1];
    DistinctPermutation(all, GrammarChallengeOf(w, seed).options);
  }

  // ------------------------------------------------------------------- story

  datatype StoryPrompt = StoryPrompt(prompt: string, words: seq<string>, theme: string)

  const StoryText: string := "Write a short story using these words:"

  /** The number of groups of five needed for n words (n / 5 rounded up). */
  function GroupCount(n: nat): nat {
    (n + 4) / 5
  }

  /** The i-th group of five consecutive entries (the last may be shorter). */
  function Group(ws: seq<WordEntry>, i: nat): seq<WordEntry>
    requires i < GroupCount(|ws|)
  {
    ws[i * 5 .. Min((i + 1) * 5, |ws|)]
  }

  /** The prompt for one group: its words, and the theme of its first word
      (the default theme when the group is empty or that theme is blank). */
  function PromptOf(group: seq<WordEntry>): StoryPrompt {
    StoryPrompt(StoryText, WordsOf(group), OrElse(if group == [] then "" else group[0].theme, DefaultTheme))
  }

  /** generateStoryPrompts, as a value: one prompt per group of five. */
  function StoryPrompts(ws: seq<WordEntry>): (ps: seq<StoryPrompt>)
    ensures |ps| == GroupCount(|ws|)
  {
    seq(GroupCount(|ws|), i requires 0 <= i < GroupCount(|ws|) => PromptOf(Group(ws, i)))
  }

  /** generateStoryPrompts: the loop pushing one prompt per group. */
  method GenerateStoryPrompts(words: seq<WordEntry>) returns (prompts: seq<StoryPrompt>)
    ensures prompts == StoryPrompts(words)
  {
    prompts := [];
    var i := 0;
    while i < (|words| + 4) / 5
      invariant 0 <= i <= GroupCount(|words|)
      invariant prompts == StoryPrompts(words)[..i]
    {
      var wordGroup := words[i * 5 .. Min((i + 1) * 5, |words|)];
      var theme := if wordGroup == [] then "" else wordGroup[0].theme;
      prompts := prompts + [StoryPrompt(StoryText, WordsOf(wordGroup), OrElse(theme, DefaultTheme))];
      i := i + 1;
    }
  }

  /** There are ceil(n / 5) prompts: enough groups of five to hold every word,
      and no more. */
  lemma StoryPromptCount(ws: seq<WordEntry>)
    ensures 5 * |StoryPrompts(ws)| >= |ws|
    ensures |StoryPrompts(ws)| == 0 || 5 * (|StoryPrompts(ws)| - 1) < |ws|
  {
  }

  /** Every group holds one to five words and takes the theme of its first
      word (well-formed entries always have a theme). */
  lemma StoryGroups(ws: seq<WordEntry>, i: nat)
    requires i < |StoryPrompts(ws)|
    ensures 1 <= |StoryPrompts(ws)[i].words| <= 5
    ensures StoryPrompts(ws)[i].words[0] == ws[5 * i].word
    ensures WellFormed(ws[5 * i]) ==> StoryPrompts(ws)[i].theme == ws[5 * i].theme
  {
  }

  /** The words of the prompts laid end to end. */
  function ConcatWords(ps: seq<StoryPrompt>): seq<string> {
    if ps == [] then [] else ConcatWords(ps[..|ps| - 1]) + ps[|ps| - 1].words
  }

  lemma WordsOfAppend(a: seq<WordEntry>, b: seq<WordEntry>)
    ensures WordsOf(a + b) == WordsOf(a) + WordsOf(b)
  {
  }

  lemma {:induction false} StoryPrefixCover(ws: seq<WordEntry>, k: nat)
    requires k <= GroupCount(|ws|)
    ensures ConcatWords(StoryPrompts(ws)[..k]) == WordsOf(ws[..Min(5 * k, |ws|)])
  {
    if k > 0 {
      var ps := StoryPrompts(ws);
      StoryPrefixCover(ws, k - 1);
      var lo, hi := 5 * (k - 1), Min(5 * k, |ws|);
      assert Min(5 * (k - 1), |ws|) == lo;
      calc {
        ConcatWords(ps[..k]);
        { assert ps[..k][..k - 1] == ps[..k - 1]; }
        ConcatWords(ps[..k - 1]) + ps[k - 1].words;
        { assert ps[k - 1].words == WordsOf(ws[lo..hi]); }
        WordsOf(ws[..lo]) + WordsOf(ws[lo..hi]);
        { WordsOfAppend(ws[..lo], ws[lo..hi]); assert ws[..lo] + ws[lo..hi] == ws[..hi]; }
        WordsOf(ws[..hi]);
      }
    }
  }

  /** Laid end to end, the prompts' words are the word list, in order. */
  lemma StoryPromptsCover(ws: seq<WordEntry>)
    ensures ConcatWords(StoryPrompts(ws)) == WordsOf(ws)
  {
    var ps := StoryPrompts(ws);
    StoryPrefixCover(ws, |ps|);
    assert ps[..|ps|] == ps;
    assert ws[..Min(5 * |ps|, |ws|)] == ws;
  }

  // -------------------------------------------------------------------- quiz

  datatype QuizItem = QuizItem(question: string, answer: string, options: seq<string>)

  /** The quiz answer for a word: its definition, or a stock phrase naming its
      part of speech (or `word`) and the word when the definition is blank. */
  function QuizAnswer(w: WordEntry): string {
    OrElse(w.definition, "A " + OrElse(w.partOfSpeech, "word") + " related to " + w.word)
  }

  /** The three fixed distractors offered beside the answer. */
  function Distractors(w: WordEntry): seq<string> {
    ["The opposite of " + w.word, "A type of " + w.word, "Something similar to " + w.word]
  }

  /** The quiz item for one word: four options, the answer and the three
      fixed distractors, in some order. */
  function QuizItemOf(w: WordEntry, seed: nat): (q: QuizItem)
    ensures q.answer == QuizAnswer(w)
    ensures |q.options| == 4 && q.answer in q.options
    ensures multiset(q.options) == multiset([QuizAnswer(w)] + Distractors(w))
  {
    var all := [QuizAnswer(w)] + Distractors(w);
    assert QuizAnswer(w) in multiset(all);
    QuizItem("What does \"" + w.word + "\" mean?", QuizAnswer(w), Shuffle(all, seed))
  }

  /** generateQuizQuestions: one item per word, in list order. */
  function QuizItems(words: seq<WordEntry>, seed: nat): (qs: seq<QuizItem>)
    ensures |qs| == |words|
    ensures forall i :: 0 <= i < |qs| ==> qs[i] == QuizItemOf(words[i], seed)
  {
    seq(|words|, i requires 0 <= i < |words| => QuizItemOf(words[i], seed))
  }

  // -------------------------------------------------------------- flashcards

  datatype CardBack = CardBack(definition: string, pronunciation: string, example: string, partOfSpeech: string)

  datatype Flashcard = Flashcard(front: string, back: CardBack)

  /** The card for one word: its front is the word; the definition and
      example are never blank (a fallback stands in), and the pronunciation
      and part of speech are shown as entered. */
  function FlashcardOf(w: WordEntry): (c: Flashcard)
    ensures c.front == w.word
    ensures c.back.definition != "" && c.back.example != ""
    ensures w.definition != "" ==> c.back.definition == w.definition
    ensures w.example != "" ==> c.back.example == w.example
    ensures c.back.pronunciation == w.pronunciation && c.back.partOfSpeech == w.partOfSpeech
  {
    Flashcard(w.word, CardBack(OrElse(w.definition, "A " + OrElse(w.partOfSpeech, "word")),
                               OrElse(w.pronunciation, ""),
                               OrElse(w.example, "Example: " + w.word + " is used in sentences."),
                               OrElse(w.partOfSpeech, "")))
  }

  /** generateFlashcards: one card per word, in list order. */
  function FlashcardSet(words: seq<WordEntry>): (cs: seq<Flashcard>)
    ensures |cs| == |words|
    ensures forall i :: 0 <= i < |cs| ==> cs[i] == FlashcardOf(words[i])
  {
    seq(|words|, i requires 0 <= i < |words| => FlashcardOf(words[i]))
  }

  // ------------------------------------------------------------------ themes

  /** The test that picks the entries whose word is not in the bucket. */
  function NotIn(correct: seq<string>): WordEntry -> bool {
    (w: WordEntry) => w.word !in correct
  }

  /** The first two words of the list that are not in the chosen bucket, in
      list order (fewer only when fewer exist). */
  function WrongWords(words: seq<WordEntry>, correct: seq<string>): (r: seq<string>)
    ensures |r| <= 2
    ensures forall i :: 0 <= i < |r| ==> r[i] !in correct && r[i] in WordsOf(words)
    ensures |r| == Min(2, |Filter(words, NotIn(correct))|)
    ensures forall i :: 0 <= i < |r| ==> r[i] == Filter(words, NotIn(correct))[i].word
  {
    var outside := Filter(words, NotIn(correct));
    var r := WordsOf(Take(outside, 2));
    assert forall i :: 0 <= i < |r| ==> outside[i] in words;
    r
  }

  // ---------------------------------------------------------------- question

  datatype Question =
    | Spelling(question: string, hint: string, pronunciation: string, answer: string, scrambled: string)
    | Meaning(question: string, options: seq<string>, answer: string, word: string)
    | Grammar(question: string, options: seq<string>, answer: string)
    | Story(prompt: string, words: seq<string>, theme: string)
    | Themes(question: string, words: seq<string>, answerWords: seq<string>, theme: string)
    | Quiz(question: string, options: seq<string>, answer: string)
    | Flashcards(front: string, back: CardBack)

  /** The activities, and the names the game uses for them. */
  datatype GameKind = SpellingGame | MeaningGame | GrammarGame | StoryGame | ThemesGame | QuizGame | FlashcardsGame

  function Name(k: GameKind): string {
    match k
    case SpellingGame => "spelling"
    case MeaningGame => "meaning"
    case GrammarGame => "grammar"
    case StoryGame => "story"
    case ThemesGame => "themes"
    case QuizGame => "quiz"
    case FlashcardsGame => "flashcards"
  }

  const Kinds: set<string> := {"spelling", "meaning", "grammar", "story", "themes", "quiz", "flashcards"}

  /** The activity a game-type name selects, if any: exactly the seven names
      are known, and each selects the activity of that name. */
  function KindNamed(name: string): (r: Option<GameKind>)
    ensures r.Some? <==> name in Kinds
    ensures r.Some? ==> Name(r.value) == name
  {
    if name == "spelling" then Some(SpellingGame)
    else if name == "meaning" then Some(MeaningGame)
    else if name == "grammar" then Some(GrammarGame)
    else if name == "story" then Some(StoryGame)
    else if name == "themes" then Some(ThemesGame)
    else if name == "quiz" then Some(QuizGame)
    else if name == "flashcards" then Some(FlashcardsGame)
    else None
  }

  /** Every activity is selected by its own name. */
  lemma KindNameRoundTrip(k: GameKind)
    ensures KindNamed(Name(k)) == Some(k)
  {
  }

  /** The activity of a question (its `type` tag). */
  function KindOf(q: Question): GameKind {
    match q
    case Spelling(_, _, _, _, _) => SpellingGame
    case Meaning(_, _, _, _) => MeaningGame
    case Grammar(_, _, _) => GrammarGame
    case Story(_, _, _) => StoryGame
    case Themes(_, _, _, _) => ThemesGame
    case Quiz(_, _, _) => QuizGame
    case Flashcards(_, _) => FlashcardsGame
  }

  /** The themes question: a theme picked from the key list (`undefined` when
      there are no keys), its bucket as the answer, and up to two other words
      mixed in with it. */
  function ThemesQuestion(words: seq<WordEntry>, themes: ThemeMap, names: seq<string>, draw: Draw): (q: Question)
    ensures q.Themes?
    ensures names != [] ==> q.theme in names && q.theme == names[draw.pick % |names|]
    ensures q.answerWords == (if q.theme in themes then themes[q.theme] else [])
    ensures multiset(q.words) == multiset(q.answerWords + WrongWords(words, q.answerWords))
  {
    var theme := if names == [] then "undefined" else Pick(names, draw.pick);
    var correct := if theme in themes then themes[theme] else [];
    var wrong := WrongWords(words, correct);
    Themes("Select all words related to: " + theme, Shuffle(correct + wrong, draw.seed), correct, theme)
  }

  /** What makes a question answerable: the spelling letters rearrange the
      answer, a multiple-choice answer is among the options, every word of the
      theme's bucket is on display, a story has one to five words. */
  predicate Answerable(q: Question) {
    match q
    case Spelling(_, _, _, answer, scrambled) => multiset(scrambled) == multiset(answer)
    case Meaning(_, options, answer, _) => answer in options
    case Grammar(_, options, answer) => answer in options
    case Story(_, words, _) => 1 <= |words| <= 5
    case Themes(_, words, answerWords, _) => forall w :: w in answerWords ==> w in words
    case Quiz(_, options, answer) => answer in options
    case Flashcards(_, _) => true
  }

  // One function per case of generateQuestion's switch; `words` is non-empty.

  function SpellingQuestion(words: seq<WordEntry>, draw: Draw): (q: Question)
    requires words != []
    ensures q.Spelling? && Answerable(q) && q.answer == words[draw.pick % |words|].word
    ensures var c := SpellingChallengeOf(words[draw.pick % |words|], draw.seed);
      q.hint == "Hint: " + c.hint && q.pronunciation == c.pronunciation
  {
    var c := Pick(SpellingChallenges(words, draw.seed), draw.pick);
    Spelling("Unscramble: \"" + c.scrambled + "\"", "Hint: " + c.hint, c.pronunciation, c.answer, c.scrambled)
  }

  function MeaningQuestion(words: seq<WordEntry>, draw: Draw): (q: Question)
    requires words != []
    ensures q.Meaning? && Answerable(q) && q.word == words[draw.pick % |words|].word
    ensures q.answer == MeaningOf(words[draw.pick % |words|]) && |q.options| == 4
    ensures multiset(q.options)
            == multiset([q.answer] + WrongOptions(words, words[draw.pick % |words|]))
  {
    var c := Pick(MeaningChallenges(words, draw.seed), draw.pick);
    Meaning("What does \"" + c.word + "\" mean?", c.options, c.correctMeaning, c.word)
  }

  function GrammarQuestion(words: seq<WordEntry>, draw: Draw): (q: Question)
    requires words != []
    ensures q.Grammar? && Answerable(q) && q.answer == words[draw.pick % |words|].word
    ensures var w := words[draw.pick % |words|];
      multiset(q.options) == multiset([w.word] + WordForms(w.word, w.partOfSpeech))
    ensures q.question == GrammarChallengeOf(words[draw.pick % |words|], draw.seed).sentence
  {
    var c := Pick(GrammarChallenges(words, draw.seed), draw.pick);
    Grammar(c.sentence, c.options, c.answer)
  }

  function StoryQuestion(words: seq<WordEntry>, draw: Draw): (q: Question)
    requires words != []
    ensures q.Story? && Answerable(q) && q.prompt == StoryText
    ensures var g := Group(words, draw.pick % GroupCount(|words|));
      g != [] && q.words == WordsOf(g) && q.theme == OrElse(g[0].theme, DefaultTheme)
  {
    var ps := StoryPrompts(words);
    var c := Pick(ps, draw.pick);
    StoryGroups(words, draw.pick % |ps|);
    Story(c.prompt, c.words, c.theme)
  }

  function QuizQuestion(words: seq<WordEntry>, draw: Draw): (q: Question)
    requires words != []
    ensures q.Quiz? && Answerable(q) && q.answer == QuizAnswer(words[draw.pick % |words|])
    ensures multiset(q.options) == multiset([q.answer] + Distractors(words[draw.pick % |words|]))
  {
    var c := Pick(QuizItems(words, draw.seed), draw.pick);
    Quiz(c.question, c.options, c.answer)
  }

  function FlashcardQuestion(words: seq<WordEntry>, draw: Draw): (q: Question)
    requires words != []
    ensures q.Flashcards? && q.front == words[draw.pick % |words|].word
    ensures q.back == FlashcardOf(words[draw.pick % |words|]).back
  {
    var c := Pick(FlashcardSet(words), draw.pick);
    Flashcards(c.front, c.back)
  }

  lemma ThemesAnswerable(words: seq<WordEntry>, themes: ThemeMap, names: seq<string>, draw: Draw)
    ensures Answerable(ThemesQuestion(words, themes, names, draw))
  {
    var q := ThemesQuestion(words, themes, names, draw);
    assert forall w :: w in q.answerWords ==> w in multiset(q.words);
  }

  /** The case of generateQuestion's switch for one activity. */
  function QuestionOfKind(k: GameKind, words: seq<WordEntry>, themes: ThemeMap, names: seq<string>,
                          draw: Draw): (q: Question)
    requires words != []
    ensures KindOf(q) == k && Answerable(q)
  {
    match k
    case SpellingGame => SpellingQuestion(words, draw)
    case MeaningGame => MeaningQuestion(words, draw)
    case GrammarGame => GrammarQuestion(words, draw)
    case StoryGame => StoryQuestion(words, draw)
    case ThemesGame =>
      ThemesAnswerable(words, themes, names, draw);
      ThemesQuestion(words, themes, names, draw)
    case QuizGame => QuizQuestion(words, draw)
    case FlashcardsGame => FlashcardQuestion(words, draw)
  }

  /** generateQuestion: nothing for an empty word list or an unknown kind;
      otherwise an answerable question of the activity the kind names. */
  function GenerateQuestion(kind: string, words: seq<WordEntry>, themes: ThemeMap, names: seq<string>,
                            draw: Draw): (r: Option<Question>)
    ensures r.None? <==> words == [] || kind !in Kinds
    ensures r.Some? ==> Name(KindOf(r.value)) == kind && Answerable(r.value)
  {
    if |words| == 0 then None
    else
      match KindNamed(kind)
      case None => None
      case Some(k) => Some(QuestionOfKind(k, words, themes, names, draw))
  }

  /** Asking for an activity by its name gives that activity's question. */
  lemma GenerateByName(k: GameKind, words: seq<WordEntry>, themes: ThemeMap, names: seq<string>, draw: Draw)
    requires words != []
    ensures GenerateQuestion(Name(k), words, themes, names, draw) == Some(QuestionOfKind(k, words, themes, names, draw))
  {
    KindNameRoundTrip(k);
  }

  /** The pick reaches every word: the k-th pick asks about the k-th word. */
  lemma EveryWordCanBeAsked(words: seq<WordEntry>, k: nat, seed: nat)
    requires k < |words|
    ensures SpellingQuestion(words, Draw(k, seed)).answer == words[k].word
    ensures MeaningQuestion(words, Draw(k, seed)).word == words[k].word
    ensures GrammarQuestion(words, Draw(k, seed)).answer == words[k].word
    ensures FlashcardQuestion(words, Draw(k, seed)).front == words[k].word
    ensures QuizQuestion(words, Draw(k, seed)).answer == QuizAnswer(words[k])
  {
    assert k % |words| == k;
  }

  /** With the index of the word list and its key order, the themes question
      asks about a theme of the list, whose words are exactly the words of
      that theme; the other words shown are at most two, none of that theme. */
  lemma ThemesQuestionSound(words: seq<WordEntry>, draw: Draw)
    requires words != []
    ensures var q := QuestionOfKind(ThemesGame, words, ThemeIndex(words), ThemeOrder(words), draw);
      && q.theme in ThemesOf(words)
      && q.answerWords == WordsOfTheme(words, q.theme)
      && q.answerWords != []
      && var wrong := WrongWords(words, q.answerWords);
         |wrong| <= 2 && multiset(q.words) == multiset(q.answerWords + wrong)
         && forall i :: 0 <= i < |wrong| ==> wrong[i] !in q.answerWords
  {
    var q := ThemesQuestion(words, ThemeIndex(words), ThemeOrder(words), draw);
    ThemesBucketSound(words, draw);
    assert QuestionOfKind(ThemesGame, words, ThemeIndex(words), ThemeOrder(words), draw) == q;
  }

  /** The theme part of ThemesQuestionSound: the theme is one of the list's,
      and its bucket holds exactly that theme's words, at least one. */
  lemma ThemesBucketSound(words: seq<WordEntry>, draw: Draw)
    requires words != []
    ensures var q := ThemesQuestion(words, ThemeIndex(words), ThemeOrder(words), draw);
      && q.theme in ThemesOf(words)
      && q.answerWords == WordsOfTheme(words, q.theme)
      && q.answerWords != []
  {
    ThemeIndexSpec(words);
    var q := ThemesQuestion(words, ThemeIndex(words), ThemeOrder(words), draw);
    assert words[0] in words;
    assert ThemeOrder(words) != [];
    var k :| 0 <= k < |words| && words[k].theme == q.theme;
    WordInItsBucket(words, k);
  }
}

=== FILE: options.dfy ===
/** An optional value: `None` stands for JavaScript's `null`/`undefined`, or
    for an operation that throws. */
module Options {
  datatype Option<T> = None | Some(value: T)
}

=== FILE: scoring.dfy ===
/** The scoring half of checkAnswer: for the question on screen, the typed
    answer and the selected words, whether the answer is correct and how many
    points it earns. */
module Scoring {
  import opened Text
  import opened Seqs
  import opened Generators

  datatype Verdict = Verdict(isCorrect: bool, points: int)

  const StoryCap: int := 50

  /** The themes rule: every selected word in the bucket earns 5, every other
      selected word costs 2; the answer is correct when as many words of the
      bucket were selected as the bucket holds and nothing else was. */
  function ThemesVerdict(answerWords: seq<string>, selected: seq<string>): (v: Verdict)
    ensures -2 * |selected| <= v.points <= 5 * |selected|
    ensures v.isCorrect ==> v.points == 5 * |answerWords|
    ensures v.isCorrect ==> forall w :: w in selected ==> w in answerWords
  {
    var correctSelections := Filter(selected, InBucket(answerWords));
    var incorrectSelections := Filter(selected, OutOfBucket(answerWords));
    FilterPartition(selected, InBucket(answerWords), OutOfBucket(answerWords));
    Verdict(|correctSelections| == |answerWords| && |incorrectSelections| == 0,
            5 * |correctSelections| - 2 * |incorrectSelections|)
  }

  /** The tests that pick the selected words inside the bucket and those
      outside it. */
  function InBucket(answerWords: seq<string>): string -> bool {
    w => w in answerWords
  }

  function OutOfBucket(answerWords: seq<string>): string -> bool {
    w => w !in answerWords
  }

  /** checkAnswer's switch. Spelling compares ignoring case, meaning, grammar
      and quiz compare exactly, a story earns two points per character up to
      50, flashcards always earn 5; every kind but themes scores between 0
      and 50. */
  function Evaluate(q: Question, answer: string, selected: seq<string>): (v: Verdict)
    ensures !q.Themes? ==> 0 <= v.points <= StoryCap
    ensures q.Themes? ==> -2 * |selected| <= v.points <= 5 * |selected|
    ensures q.Story? || q.Flashcards? ==> v.isCorrect
    ensures (q.Spelling? || q.Meaning? || q.Grammar? || q.Quiz?) ==> v.points == (if v.isCorrect then 10 else 0)
    ensures q.Spelling? ==> (v.isCorrect <==> ToLower(answer) == ToLower(q.answer))
    ensures q.Story? ==> v.points == Min(2 * |answer|, StoryCap)
    ensures q.Flashcards? ==> v == Verdict(true, 5)
  {
    match q
    case Spelling(_, _, _, expected, _) =>
      var ok := ToLower(answer) == ToLower(expected);
      Verdict(ok, if ok then 10 else 0)
    case Meaning(_, _, expected, _) =>
      Verdict(answer == expected, if answer == expected then 10 else 0)
    case Grammar(_, _, expected) =>
      Verdict(answer == expected, if answer == expected then 10 else 0)
    case Quiz(_, _, expected) =>
      Verdict(answer == expected, if answer == expected then 10 else 0)
    case Story(_, _, _) =>
      Verdict(true, Min(2 * |answer|, StoryCap))
    case Themes(_, _, answerWords, _) =>
      ThemesVerdict(answerWords, selected)
    case Flashcards(_, _) =>
      Verdict(true, 5)
  }

  /** Spelling ignores case: two answers that agree once lower-cased score
      alike, and the stored answer in any case is correct. */
  lemma SpellingIgnoresCase(q: Question, a: string, b: string, selected: seq<string>)
    requires q.Spelling? && ToLower(a) == ToLower(b)
    ensures Evaluate(q, a, selected) == Evaluate(q, b, selected)
    ensures Evaluate(q, ToLower(q.answer), selected) == Verdict(true, 10)
  {
    ToLowerIdempotent(q.answer);
  }

  lemma SpellingExample()
    ensures Evaluate(Spelling("", "", "", "cat", "tca"), "CAT", []) == Verdict(true, 10)
    ensures Evaluate(Spelling("", "", "", "cat", "tca"), "cot", []) == Verdict(false, 0)
  {
    assert ToLower("CAT") == "cat";
    assert ToLower("cot") == "cot";
    assert ToLower("cat") == "cat";
  }

  /** Meaning, grammar and quiz answers must match exactly, case included. */
  lemma ExactMatchKinds(q: Question, answer: string, selected: seq<string>)
    requires q.Meaning? || q.Grammar? || q.Quiz?
    ensures Evaluate(q, answer, selected).isCorrect <==> answer == q.answer
  {
  }

  lemma ExactMatchExample()
    ensures Evaluate(Quiz("", ["Cat", "cat"], "cat"), "Cat", []) == Verdict(false, 0)
  {
    assert "Cat"[0] != "cat"[0];
  }

  /** A story earns two points per character, capped at 50; a longer story
      never earns less. */
  lemma StoryPoints(q: Question, a: string, b: string, selected: seq<string>)
    requires q.Story? && |a| <= |b|
    ensures Evaluate(q, a, selected).points == (if 2 * |a| <= StoryCap then 2 * |a| else StoryCap)
    ensures Evaluate(q, a, selected).points <= Evaluate(q, b, selected).points
  {
  }

  lemma StoryExample()
    ensures Evaluate(Story("", [], ""), "ten chars!", []) == Verdict(true, 20)
    ensures Evaluate(Story("", [], ""), seq(40, i => 'x'), []) == Verdict(true, 50)
  {
  }

  /** With no word selected twice and no word twice in the bucket, the count
      test is the same as "exactly the bucket's words were selected". */
  lemma ThemesCountIsSetEquality(answerWords: seq<string>, selected: seq<string>)
    requires Distinct(answerWords) && Distinct(selected)
    ensures ThemesVerdict(answerWords, selected).isCorrect
            <==> Elems(selected) == Elems(answerWords)
  {
    var c := Filter(selected, InBucket(answerWords));
    var i := Filter(selected, OutOfBucket(answerWords));
    var S, A := Elems(selected), Elems(answerWords);
    var C := Kept(selected, InBucket(answerWords));
    FilterDistinctCard(selected, InBucket(answerWords));
    DistinctCard(answerWords);
    assert |c| == |C| && |answerWords| == |A|;
    assert C <= A;
    if ThemesVerdict(answerWords, selected).isCorrect {
      assert i == [];
      assert forall w :: w in selected ==> w !in i;
      assert S <= A;
      assert C == S;
      SubsetSameSize(C, A);
    } else if S == A {
      assert C == A;
      assert forall w :: w in selected ==> w in answerWords by {
        forall w | w in selected ensures w in answerWords {
          assert w in S;
        }
      }
      FilterKeepsNone(selected, OutOfBucket(answerWords));
    }
  }

  /** With no word selected twice, the themes points are 5 for each selected
      word of the bucket and -2 for each selected word outside it. */
  lemma ThemesPoints(answerWords: seq<string>, selected: seq<string>)
    requires Distinct(selected)
    ensures ThemesVerdict(answerWords, selected).points
            == 5 * |Elems(selected) * Elems(answerWords)| - 2 * |Elems(selected) - Elems(answerWords)|
  {
    FilterDistinctCard(selected, InBucket(answerWords));
    FilterDistinctCard(selected, OutOfBucket(answerWords));
    assert Kept(selected, InBucket(answerWords)) == Elems(selected) * Elems(answerWords);
    assert Kept(selected, OutOfBucket(answerWords)) == Elems(selected) - Elems(answerWords);
  }

  /** A subset as large as its superset is the whole superset. */
  lemma SubsetSameSize<T>(a: set<T>, b: set<T>)
    requires a <= b && |a| == |b|
    ensures a == b
  {
    assert b == a + (b - a);
    assert a * (b - a) == {};
    assert |b - a| == 0;
  }

  lemma SubsetCard<T>(a: set<T>, b: set<T>)
    requires a <= b
    ensures |a| <= |b|
  {
    assert b == a + (b - a);
  }

  /** A bucket holding a word twice can never be answered correctly when no
      word is selected twice: the selection cannot reach the bucket's
      length. */
  lemma DuplicateBucketNeverCorrect(answerWords: seq<string>, selected: seq<string>)
    requires !Distinct(answerWords) && Distinct(selected)
    ensures !ThemesVerdict(answerWords, selected).isCorrect
  {
    FilterDistinctCard(selected, InBucket(answerWords));
    RepeatCard(answerWords);
    var C := Kept(selected, InBucket(answerWords));
    var A := Elems(answerWords);
    assert C <= A;
    SubsetCard(C, A);
  }

  lemma ThemesExample()
    ensures ThemesVerdict(["apple", "pear", "plum"], ["plum", "apple", "pear"]) == Verdict(true, 15)
    ensures ThemesVerdict(["apple", "pear", "plum"], ["apple", "rock"]) == Verdict(false, 3)
  {
    var ans := ["apple", "pear", "plum"];
    assert "rock" !in ans by {
      assert "rock"[0] != "apple"[0] && "rock"[0] != "pear"[0] && "rock"[0] != "plum"[0];
    }
    assert Filter(["rock"], InBucket(ans)) == [];
  }

  /** Selecting exactly the bucket's words earns full marks. */
  lemma {:induction false} ThemesFullSelection(answerWords: seq<string>)
    ensures ThemesVerdict(answerWords, answerWords) == Verdict(true, 5 * |answerWords|)
  {
    FilterKeepsAll(answerWords, InBucket(answerWords));
    FilterPartition(answerWords, InBucket(answerWords), OutOfBucket(answerWords));
  }

  /** Every generated question can be answered for full marks: the stored
      answer (for spelling, the word; for the choice kinds, an offered
      option; for themes, the displayed words of the bucket) is correct. */
  lemma GeneratedQuestionsCanBeWon(q: Question, selected: seq<string>)
    requires Answerable(q)
    ensures q.Spelling? ==> Evaluate(q, q.answer, selected) == Verdict(true, 10)
    ensures (q.Meaning? || q.Grammar? || q.Quiz?) ==>
              q.answer in q.options && Evaluate(q, q.answer, selected) == Verdict(true, 10)
    ensures q.Themes? ==>
              (forall w :: w in q.answerWords ==> w in q.words)
              && Evaluate(q, "", q.answerWords) == Verdict(true, 5 * |q.answerWords|)
  {
    if q.Themes? {
      ThemesFullSelection(q.answerWords);
    }
  }
}

=== FILE: seqs.dfy ===
/** Sequence operations shared by the game: Array.prototype.filter, the
    duplicate-free property, and the random reordering used for every option
    list. */
module Seqs {

  predicate Distinct<T(==)>(s: seq<T>) {
    forall i, j :: 0 <= i < j < |s| ==> s[i] != s[j]
  }

  /** The elements of a sequence, as a set. */
  function Elems<T>(s: seq<T>): set<T> {
    set x | x in s
  }

  /** The elements of a sequence that pass a test, as a set. */
  function Kept<T(!new)>(s: seq<T>, keep: T -> bool): set<T> {
    set x | x in s && keep(x)
  }

  /** Array.prototype.filter: the elements that pass, in their original order. */
  function Filter<T(==, !new)>(s: seq<T>, keep: T -> bool): (r: seq<T>)
    ensures |r| <= |s|
    ensures forall x :: x in r <==> x in s && keep(x)
  {
    if s == [] then []
    else (if keep(s[0]) then [s[0]] else []) + Filter(s[1..], keep)
  }

  lemma {:induction false} FilterAppend<T(!new)>(a: seq<T>, b: seq<T>, keep: T -> bool)
    ensures Filter(a + b, keep) == Filter(a, keep) + Filter(b, keep)
  {
    if a == [] {
      assert a + b == b;
    } else {
      assert (a + b)[0] == a[0] && (a + b)[1..] == a[1..] + b;
      FilterAppend(a[1..], b, keep);
    }
  }

  /** A filter that no element passes leaves nothing. */
  lemma {:induction false} FilterKeepsNone<T(!new)>(s: seq<T>, keep: T -> bool)
    requires forall x :: x in s ==> !keep(x)
    ensures Filter(s, keep) == []
  {
    if s != [] {
      FilterKeepsNone(s[1..], keep);
    }
  }

  /** Complementary filters split a sequence: every element goes to exactly
      one side. */
  lemma {:induction false} FilterPartition<T(!new)>(s: seq<T>, keep: T -> bool, drop: T -> bool)
    requires forall x :: drop(x) == !keep(x)
    ensures |Filter(s, keep)| + |Filter(s, drop)| == |s|
  {
    if s != [] {
      FilterPartition(s[1..], keep, drop);
    }
  }

  /** A filter that every element passes changes nothing. */
  lemma {:induction false} FilterKeepsAll<T(!new)>(s: seq<T>, keep: T -> bool)
    requires forall x :: x in s ==> keep(x)
    ensures Filter(s, keep) == s
  {
    if s != [] {
      FilterKeepsAll(s[1..], keep);
    }
  }

  /** Filtering keeps a duplicate-free sequence duplicate-free. */
  lemma {:induction false} FilterDistinct<T(!new)>(s: seq<T>, keep: T -> bool)
    requires Distinct(s)
    ensures Distinct(Filter(s, keep))
  {
    if s != [] {
      FilterDistinct(s[1..], keep);
      assert s[0] !in s[1..];
      assert s[0] !in Filter(s[1..], keep);
    }
  }

  /** Filtering a duplicate-free sequence leaves as many elements as there
      are distinct elements that pass. */
  lemma FilterDistinctCard<T(!new)>(s: seq<T>, keep: T -> bool)
    requires Distinct(s)
    ensures |Filter(s, keep)| == |Kept(s, keep)|
  {
    FilterDistinct(s, keep);
    DistinctCard(Filter(s, keep));
    assert Elems(Filter(s, keep)) == Kept(s, keep);
  }

  /** The distinct elements of a duplicate-free sequence number its length. */
  lemma {:induction false} DistinctCard<T>(s: seq<T>)
    requires Distinct(s)
    ensures |Elems(s)| == |s|
  {
    if s != [] {
      DistinctCard(s[1..]);
      assert Elems(s) == {s[0]} + Elems(s[1..]);
      assert s[0] !in s[1..];
    }
  }

  /** A sequence with a repeated element has fewer distinct elements than
      entries. */
  lemma {:induction false} RepeatCard<T>(s: seq<T>)
    requires !Distinct(s)
    ensures |Elems(s)| < |s|
  {
    var i, j :| 0 <= i < j < |s| && s[i] == s[j];
    if i == 0 {
      assert s[0] in s[1..];
      SetCardAtMostLength(s[1..]);
      assert Elems(s) == Elems(s[1..]);
    } else {
      RepeatCard(s[1..]);
      assert Elems(s) == {s[0]} + Elems(s[1..]);
    }
  }

  lemma {:induction false} SetCardAtMostLength<T>(s: seq<T>)
    ensures |Elems(s)| <= |s|
  {
    if s != [] {
      SetCardAtMostLength(s[1..]);
      assert Elems(s) == {s[0]} + Elems(s[1..]);
    }
  }

  /** A rearrangement of a duplicate-free sequence is duplicate-free. */
  lemma DistinctPermutation<T>(a: seq<T>, b: seq<T>)
    requires multiset(a) == multiset(b) && Distinct(a)
    ensures Distinct(b)
  {
    assert |a| == |multiset(a)| == |multiset(b)| == |b|;
    assert Elems(a) == Elems(b) by {
      forall x ensures x in a <==> x in b {
        assert x in a <==> x in multiset(a);
        assert x in b <==> x in multiset(b);
      }
    }
    DistinctCard(a);
    if !Distinct(b) {
      RepeatCard(b);
    }
  }

  /** The first n elements (all of them when there are fewer). */
  function Take<T>(s: seq<T>, n: nat): (r: seq<T>)
    ensures |r| <= n && |r| <= |s|
    ensures |r| == n || r == s
    ensures forall i :: 0 <= i < |r| ==> r[i] == s[i]
  {
    if |s| <= n then s else s[..n]
  }

  /** Each element replaced by the elements f gives for it, in order (defined
      from the last element back, as a loop appending to a list builds it). */
  function FlatMap<A, B>(s: seq<A>, f: A -> seq<B>): seq<B> {
    if s == [] then [] else FlatMap(s[..|s| - 1], f) + f(s[|s| - 1])
  }

  lemma {:induction false} FlatMapAppend<A, B>(a: seq<A>, b: seq<A>, f: A -> seq<B>)
    ensures FlatMap(a + b, f) == FlatMap(a, f) + FlatMap(b, f)
    decreases |b|
  {
    if b == [] {
      assert a + b == a;
    } else {
      var c := b[..|b| - 1];
      assert (a + b)[..|a + b| - 1] == a + c;
      assert (a + b)[|a + b| - 1] == b[|b| - 1];
      FlatMapAppend(a, c, f);
    }
  }

  /** When f gives at most one element for each input, the result is no
      longer than the input. */
  lemma {:induction false} FlatMapAtMostOne<A, B>(s: seq<A>, f: A -> seq<B>)
    requires forall x :: x in s ==> |f(x)| <= 1
    ensures |FlatMap(s, f)| <= |s|
  {
    if s != [] {
      FlatMapAtMostOne(s[..|s| - 1], f);
    }
  }

  /** When f gives exactly one element for each input, the k-th output is the
      element f gives for the k-th input. */
  lemma {:induction false} FlatMapExactlyOne<A, B>(s: seq<A>, f: A -> seq<B>)
    requires forall x :: x in s ==> |f(x)| == 1
    ensures |FlatMap(s, f)| == |s|
    ensures forall k :: 0 <= k < |s| ==> FlatMap(s, f)[k] == f(s[k])[0]
  {
    if s != [] {
      var init := s[..|s| - 1];
      FlatMapExactlyOne(init, f);
      assert forall k :: 0 <= k < |init| ==> init[k] == s[k];
    }
  }

  /** A property every output of f has, every element of the result has. */
  lemma {:induction false} FlatMapAll<A, B>(s: seq<A>, f: A -> seq<B>, p: B -> bool)
    requires forall x, k :: x in s && 0 <= k < |f(x)| ==> p(f(x)[k])
    ensures forall k :: 0 <= k < |FlatMap(s, f)| ==> p(FlatMap(s, f)[k])
  {
    if s != [] {
      FlatMapAll(s[..|s| - 1], f, p);
    }
  }

  /** The source reorders option lists with `sort(() => Math.random() - 0.5)`.
      The model reads the random draw `seed` as a Lehmer code: the first element
      is the one at position seed % |s|, the rest are ordered by seed / |s|.
      Every result is a permutation of the input (and, by ShuffleOnto, every
      permutation is the result of some draw). */
  function Shuffle<T>(s: seq<T>, seed: nat): (r: seq<T>)
    ensures |r| == |s|
    ensures multiset(r) == multiset(s)
    decreases |s|
  {
    if s == [] then []
    else
      var k := seed % |s|;
      assert s == s[..k] + [s[k]] + s[k + 1..];
      [s[k]] + Shuffle(s[..k] + s[k + 1..], seed / |s|)
  }

  lemma DivModOf(k: nat, n: nat, q: nat)
    requires k < n
    ensures (k + n * q) % n == k && (k + n * q) / n == q
  {
    var x := k + n * q;
    var d, m := x / n, x % n;
    assert n * d + m == x && 0 <= m < n;
    assert n * (d - q) == k - m;
    if d - q >= 1 {
      assert false;
    } else if d - q <= -1 {
      assert false;
    }
  }

  lemma RemoveAtMultiset<T>(s: seq<T>, k: nat)
    requires k < |s|
    ensures multiset(s[..k] + s[k + 1..]) == multiset(s) - multiset{s[k]}
  {
    assert s == s[..k] + [s[k]] + s[k + 1..];
  }

  lemma ShuffleUnfold<T>(s: seq<T>, seed: nat, k: nat, q: nat)
    requires |s| > 0 && k == seed % |s| && q == seed / |s|
    ensures Shuffle(s, seed) == [s[k]] + Shuffle(s[..k] + s[k + 1..], q)
  {
  }

  /** The draw that puts s[k] first and then orders the rest by q. */
  lemma ShuffleStep<T>(s: seq<T>, k: nat, q: nat) returns (seed: nat)
    requires k < |s|
    ensures Shuffle(s, seed) == [s[k]] + Shuffle(s[..k] + s[k + 1..], q)
  {
    seed := k + |s| * q;
    DivModOf(k, |s|, q);
    ShuffleUnfold(s, seed, k, q);
  }

  /** Every rearrangement of s is produced by some draw: the model of the
      random reordering excludes no order. */
  lemma {:induction false} ShuffleOnto<T>(s: seq<T>, t: seq<T>) returns (seed: nat)
    requires multiset(t) == multiset(s)
    ensures Shuffle(s, seed) == t
    decreases |s|
  {
    if s == [] {
      seed := 0;
      assert |t| == |multiset(t)| == 0;
    } else {
      var n := |s|;
      assert |t| == |multiset(t)| == n;
      assert t[0] in multiset(s);
      var k :| 0 <= k < n && s[k] == t[0];
      var rest := s[..k] + s[k + 1..];
      RemoveAtMultiset(s, k);
      assert t == [t[0]] + t[1..];
      assert multiset(t[1..]) == multiset(t) - multiset{t[0]};
      var q := ShuffleOnto(rest, t[1..]);
      seed := ShuffleStep(s, k, q);
    }
  }
}

=== FILE: session.dfy ===
/** The game session: the state the handlers read and update, and the
    handlers themselves (submitting the word list, starting a game, moving to
    the next question, toggling a theme word, checking an answer). */
module Session {
  import opened Options
  import opened Seqs
  import opened WordList
  import opened ThemeIndexing
  import opened Generators
  import opened Scoring

  /** Answers per level: the level rises on the fifth answer. */
  const QuestionsPerLevel: int := 5

  /** The level and progress after one answer: when the old progress is 4 or
      more the level rises and progress restarts at 0, otherwise progress
      counts up (the later of the two progress updates wins). */
  function Advance(level: int, progress: int): (r: (int, int))
    ensures r.0 == level || r.0 == level + 1
    ensures 0 <= progress <= 4 ==> 0 <= r.1 <= 4
    ensures r.0 == level + 1 <==> progress >= 4
  {
    if progress >= 4 then (level + 1, 0) else (level, progress + 1)
  }

  /** The level and progress after n answers. */
  function AdvanceMany(level: int, progress: int, n: nat): (int, int) {
    if n == 0 then (level, progress)
    else
      var r := AdvanceMany(level, progress, n - 1);
      Advance(r.0, r.1)
  }

  /** Counting from any valid position, n answers raise the level once for
      every five answers: the level goes up by exactly one on every fifth. */
  lemma {:induction false} LevelEveryFifthAnswer(level: int, progress: int, n: nat)
    requires 0 <= progress < QuestionsPerLevel
    ensures AdvanceMany(level, progress, n)
            == (level + (progress + n) / QuestionsPerLevel, (progress + n) % QuestionsPerLevel)
  {
    if n > 0 {
      LevelEveryFifthAnswer(level, progress, n - 1);
      var m := progress + n - 1;
      DivModStep(m);
    }
  }

  lemma DivModStep(m: nat)
    ensures (m % 5 >= 4 ==> (m + 1) / 5 == m / 5 + 1 && (m + 1) % 5 == 0)
    ensures (m % 5 < 4 ==> (m + 1) / 5 == m / 5 && (m + 1) % 5 == m % 5 + 1)
  {
    var q, r := m / 5, m % 5;
    assert m == 5 * q + r;
    if r >= 4 {
      assert m + 1 == 5 * (q + 1) + 0;
    } else {
      assert m + 1 == 5 * q + (r + 1);
    }
  }

  /** The score after an answer: it never goes down, and rises by
      exactly the points when they are positive. */
  function Awarded(score: int, points: int): (r: int)
    ensures r >= score
    ensures points >= 0 ==> r == score + points
    ensures points <= 0 ==> r == score
  {
    score + (if points > 0 then points else 0)
  }

  /** The test that keeps every word but the given one. */
  function Other(word: string): string -> bool {
    w => w != word
  }

  /** The selection after toggling a word: removed when it was selected,
      added at the end when it was not. */
  function Toggled(selected: seq<string>, word: string): seq<string> {
    if word in selected then Filter(selected, Other(word)) else selected + [word]
  }

  /** Toggling flips the word's membership and leaves every other word as it
      was. */
  lemma ToggleFlips(selected: seq<string>, word: string)
    ensures word in Toggled(selected, word) <==> word !in selected
    ensures forall w :: w != word ==> (w in Toggled(selected, word) <==> w in selected)
  {
  }

  /** Toggling never selects a word twice. */
  lemma ToggleKeepsDistinct(selected: seq<string>, word: string)
    requires Distinct(selected)
    ensures Distinct(Toggled(selected, word))
  {
    if word in selected {
      FilterDistinct(selected, Other(word));
    }
  }

  /** Toggling a word that was not selected, then toggling it again, gives
      back the original selection. */
  lemma ToggleTwice(selected: seq<string>, word: string)
    requires word !in selected
    ensures Toggled(Toggled(selected, word), word) == selected
  {
    var s := selected + [word];
    assert word in s;
    FilterAppend(selected, [word], Other(word));
    FilterKeepsAll(selected, Other(word));
    assert Filter([word], Other(word)) == [];
  }

  /** The selection after toggling each of the given words in turn. */
  function ToggleAll(selected: seq<string>, words: seq<string>): seq<string>
    decreases |words|
  {
    if words == [] then selected else ToggleAll(Toggled(selected, words[0]), words[1..])
  }

  /** Toggling words none of which is selected yet, and none twice, appends
      them to the selection in order. */
  lemma {:induction false} ToggleAllAppends(selected: seq<string>, words: seq<string>)
    requires Distinct(selected + words)
    ensures ToggleAll(selected, words) == selected + words
    decreases |words|
  {
    if words != [] {
      var all := selected + words;
      assert all[|selected|] == words[0];
      assert words[0] !in selected by {
        forall i | 0 <= i < |selected| ensures selected[i] != words[0] {
          assert all[i] == selected[i];
        }
      }
      var next := selected + [words[0]];
      assert Toggled(selected, words[0]) == next;
      assert next + words[1..] == all;
      ToggleAllAppends(next, words[1..]);
    }
  }

  /** A themes question whose bucket repeats no word can be won in play:
      toggling the bucket's words one by one from an empty selection gives a
      selection without repeats that is correct and earns full marks. (A
      bucket that repeats a word can never be won: DuplicateBucketNeverCorrect.) */
  lemma ThemesWonByToggling(q: Question, answer: string)
    requires q.Themes? && Distinct(q.answerWords)
    ensures Distinct(ToggleAll([], q.answerWords))
    ensures Evaluate(q, answer, ToggleAll([], q.answerWords)) == Verdict(true, 5 * |q.answerWords|)
  {
    assert [] + q.answerWords == q.answerWords;
    ToggleAllAppends([], q.answerWords);
    ThemesFullSelection(q.answerWords);
  }

  class GameSession {
    var wordList: seq<WordEntry>
    var themes: ThemeMap
    var currentGame: string
    var currentQuestion: Option<Question>
    var score: int
    var level: int
    var gameProgress: int
    var selectedAnswers: seq<string>

    /** The index always belongs to the word list, the words are as the
        parser makes them, the score is never negative, the level starts at
        1, progress stays within a level and no word is selected twice. */
    predicate Valid()
      reads this
    {
      && themes == ThemeIndex(wordList)
      && (forall k :: 0 <= k < |wordList| ==> WellFormed(wordList[k]))
      && score >= 0 && level >= 1
      && 0 <= gameProgress < QuestionsPerLevel
      && Distinct(selectedAnswers)
    }

    constructor()
      ensures Valid()
      ensures wordList == [] && themes == map[] && currentGame == "menu" && currentQuestion == None
      ensures score == 0 && level == 1 && gameProgress == 0 && selectedAnswers == []
    {
      wordList := [];
      themes := map[];
      currentGame := "menu";
      currentQuestion := None;
      score := 0;
      level := 1;
      gameProgress := 0;
      selectedAnswers := [];
    }

    /** handleWordListSubmit: parse the text; when it yields no word nothing
        changes, otherwise the word list and its theme index are replaced. */
    method SubmitWordList(inputText: string)
      requires Valid()
      modifies this
      ensures Valid()
      ensures var words := ParseEntries(NonBlankLines(inputText));
        if words == [] then wordList == old(wordList) && themes == old(themes)
        else wordList == words && themes == ThemeIndex(words)
      ensures currentGame == old(currentGame) && currentQuestion == old(currentQuestion)
      ensures score == old(score) && level == old(level) && gameProgress == old(gameProgress)
      ensures selectedAnswers == old(selectedAnswers)
    {
      var words := ParseWordList(inputText);
      if |words| == 0 {
        return;
      }
      wordList := words;
      themes := GenerateThemes(words);
    }

    /** startGame: with no words nothing changes; otherwise the game becomes
        the requested one, with a fresh question of it and no selection. */
    method StartGame(gameType: string, draw: Draw)
      requires Valid()
      modifies this
      ensures Valid()
      ensures old(wordList) == [] ==>
                currentGame == old(currentGame) && currentQuestion == old(currentQuestion)
                && selectedAnswers == old(selectedAnswers)
      ensures old(wordList) != [] ==>
                && currentGame == gameType
                && currentQuestion == GenerateQuestion(gameType, wordList, themes, ThemeOrder(wordList), draw)
                && selectedAnswers == []
      ensures wordList == old(wordList) && themes == old(themes)
      ensures score == old(score) && level == old(level) && gameProgress == old(gameProgress)
    {
      if |wordList| == 0 {
        return;
      }
      currentGame := gameType;
      currentQuestion := GenerateQuestion(gameType, wordList, themes, ThemeOrder(wordList), draw);
      selectedAnswers := [];
    }

    /** nextQuestion: a fresh question of the current game, no selection. */
    method NextQuestion(draw: Draw)
      requires Valid()
      modifies this
      ensures Valid()
      ensures currentQuestion == GenerateQuestion(currentGame, wordList, themes, ThemeOrder(wordList), draw)
      ensures selectedAnswers == []
      ensures wordList == old(wordList) && themes == old(themes) && currentGame == old(currentGame)
      ensures score == old(score) && level == old(level) && gameProgress == old(gameProgress)
    {
      currentQuestion := GenerateQuestion(currentGame, wordList, themes, ThemeOrder(wordList), draw);
      selectedAnswers := [];
    }

    /** toggleThemeAnswer: the selection with the word removed or added. */
    method ToggleThemeAnswer(word: string)
      requires Valid()
      modifies this
      ensures Valid()
      ensures selectedAnswers == Toggled(old(selectedAnswers), word)
      ensures wordList == old(wordList) && themes == old(themes) && currentGame == old(currentGame)
      ensures currentQuestion == old(currentQuestion)
      ensures score == old(score) && level == old(level) && gameProgress == old(gameProgress)
    {
      ToggleKeepsDistinct(selectedAnswers, word);
      if word in selectedAnswers {
        selectedAnswers := Filter(selectedAnswers, Other(word));
      } else {
        selectedAnswers := selectedAnswers + [word];
      }
    }

    /** checkAnswer: score the answer against the question on screen, add the
        points (never taking any away), and count the answer towards the
        level. */
    method CheckAnswer(answer: string) returns (verdict: Verdict)
      requires Valid() && currentQuestion.Some?
      modifies this
      ensures Valid()
      ensures wordList == old(wordList) && themes == old(themes) && currentGame == old(currentGame)
      ensures currentQuestion == old(currentQuestion) && selectedAnswers == old(selectedAnswers)
      ensures verdict == Evaluate(currentQuestion.value, answer, selectedAnswers)
      ensures score == Awarded(old(score), verdict.points)
      ensures (level, gameProgress) == Advance(old(level), old(gameProgress))
    {
      verdict := Evaluate(currentQuestion.value, answer, selectedAnswers);
      score := score + (if verdict.points > 0 then verdict.points else 0);
      var progress := gameProgress;
      gameProgress := progress + 1;
      if progress >= 4 {
        level := level + 1;
        gameProgress := 0;
      }
    }
  }
}

=== FILE: text.dfy ===
/** String operations the game relies on: JavaScript's trim, split and
    toLowerCase, and the `a || b` fallback on strings. */
module Text {

  /** The characters String.prototype.trim removes: ECMAScript white space
      (including every Zs code point) and line terminators. */
  predicate IsSpace(c: char) {
    c == '\t' || c == '\n' || c == '\U{B}' || c == '\U{C}' || c == '\r' || c == ' '
    || c == '\U{A0}' || c == '\U{1680}' || ('\U{2000}' <= c <= '\U{200A}')
    || c == '\U{2028}' || c == '\U{2029}' || c == '\U{202F}' || c == '\U{205F}'
    || c == '\U{3000}' || c == '\U{FEFF}'
  }

  predicate AllSpace(s: string) {
    forall i :: 0 <= i < |s| ==> IsSpace(s[i])
  }

  /** Neither starts nor ends with white space. */
  predicate IsTrimmed(s: string) {
    s == [] || (!IsSpace(s[0]) && !IsSpace(s[|s| - 1]))
  }

  /** Drops the white space at the start. */
  function TrimStart(s: string): (r: string)
    ensures |r| <= |s|
    ensures r == [] || !IsSpace(r[0])
  {
    if s != [] && IsSpace(s[0]) then TrimStart(s[1..]) else s
  }

  /** Drops the white space at the end. */
  function TrimEnd(s: string): (r: string)
    ensures |r| <= |s|
    ensures r == [] || !IsSpace(r[|r| - 1])
  {
    if s != [] && IsSpace(s[|s| - 1]) then TrimEnd(s[..|s| - 1]) else s
  }

  /** What TrimStart drops is a white-space prefix. */
  lemma {:induction false} TrimStartCuts(s: string)
    ensures TrimStart(s) == s[|s| - |TrimStart(s)|..]
    ensures AllSpace(s[..|s| - |TrimStart(s)|])
  {
    if s != [] && IsSpace(s[0]) {
      TrimStartCuts(s[1..]);
      var r := TrimStart(s[1..]);
      assert s[..|s| - |r|] == [s[0]] + s[1..][..|s| - 1 - |r|];
    }
  }

  /** What TrimEnd drops is a white-space suffix. */
  lemma {:induction false} TrimEndCuts(s: string)
    ensures TrimEnd(s) == s[..|TrimEnd(s)|]
    ensures AllSpace(s[|TrimEnd(s)|..])
  {
    if s != [] && IsSpace(s[|s| - 1]) {
      TrimEndCuts(s[..|s| - 1]);
      var r := TrimEnd(s[..|s| - 1]);
      assert s[|r|..] == s[..|s| - 1][|r|..] + [s[|s| - 1]];
    }
  }

  /** String.prototype.trim: white space removed from both ends. */
  function Trim(s: string): (r: string)
    ensures |r| <= |s|
  {
    TrimEnd(TrimStart(s))
  }

  /** Trim leaves no white space at either end. */
  lemma TrimIsTrimmed(s: string)
    ensures IsTrimmed(Trim(s))
  {
    TrimEndCuts(TrimStart(s));
  }

  /** Trim keeps a middle slice of its input and cuts away only white space. */
  lemma TrimCutsSpace(s: string)
    ensures exists i :: 0 <= i <= |s| - |Trim(s)| && Trim(s) == s[i..i + |Trim(s)|]
                        && AllSpace(s[..i]) && AllSpace(s[i + |Trim(s)|..])
  {
    var a := TrimStart(s);
    var r := TrimEnd(a);
    TrimStartCuts(s);
    TrimEndCuts(a);
    var i := |s| - |a|;
    assert r == s[i..i + |r|];
    assert s[i + |r|..] == a[|r|..];
  }

  /** Trimming a string without white space at its ends changes nothing. */
  lemma TrimmedIsFixed(s: string)
    requires IsTrimmed(s)
    ensures Trim(s) == s
  {
  }

  /** A string trims to the empty string exactly when it is all white space. */
  lemma TrimEmptyIffBlank(s: string)
    ensures Trim(s) == [] <==> AllSpace(s)
  {
    TrimCutsSpace(s);
  }

  /** String.prototype.split with a one-character separator: the pieces
      between separators, at least one piece, none containing the separator;
      gluing them back together restores the input. */
  function Split(s: string, sep: char): (parts: seq<string>)
    ensures |parts| >= 1
    ensures forall i :: 0 <= i < |parts| ==> sep !in parts[i]
    ensures Join(parts, sep) == s
  {
    if s == [] then [[]]
    else
      var rest := Split(s[1..], sep);
      if s[0] == sep then
        assert [[]] + rest == [[]] + [rest[0]] + rest[1..];
        [[]] + rest
      else
        var parts := [[s[0]] + rest[0]] + rest[1..];
        assert parts[1..] == rest[1..];
        parts
  }

  /** Array.prototype.join with a one-character separator. */
  function Join(parts: seq<string>, sep: char): string {
    if |parts| == 0 then []
    else if |parts| == 1 then parts[0]
    else parts[0] + [sep] + Join(parts[1..], sep)
  }

  lemma {:induction false} SplitPieceThenRest(p: string, sep: char, t: string)
    requires sep !in p
    ensures Split(p + [sep] + t, sep) == [p] + Split(t, sep)
  {
    if p == [] {
      assert (p + [sep] + t)[1..] == t;
    } else {
      assert (p + [sep] + t)[1..] == p[1..] + [sep] + t;
      SplitPieceThenRest(p[1..], sep, t);
      var rest := Split(p[1..] + [sep] + t, sep);
      assert rest[0] == p[1..] && rest[1..] == Split(t, sep);
      assert [p[0]] + p[1..] == p;
    }
  }

  lemma {:induction false} SplitPiece(p: string, sep: char)
    requires sep !in p
    ensures Split(p, sep) == [p]
  {
    if p != [] {
      SplitPiece(p[1..], sep);
    }
  }

  /** Splitting undoes joining, for pieces free of the separator. */
  lemma {:induction false} SplitJoin(parts: seq<string>, sep: char)
    requires |parts| >= 1
    requires forall i :: 0 <= i < |parts| ==> sep !in parts[i]
    ensures Split(Join(parts, sep), sep) == parts
  {
    if |parts| == 1 {
      SplitPiece(parts[0], sep);
    } else {
      SplitJoin(parts[1..], sep);
      SplitPieceThenRest(parts[0], sep, Join(parts[1..], sep));
    }
  }

  lemma {:induction false} JoinFree(parts: seq<string>, sep: char, c: char)
    requires c != sep
    requires forall i :: 0 <= i < |parts| ==> c !in parts[i]
    ensures c !in Join(parts, sep)
  {
    if |parts| > 1 {
      JoinFree(parts[1..], sep, c);
    }
  }

  /** ASCII lower-casing of one character. */
  function LowerChar(c: char): char {
    if 'A' <= c <= 'Z' then (c as int + 32) as char else c
  }

  /** String.prototype.toLowerCase, restricted to ASCII letters: same length,
      upper-case ASCII letters mapped down, everything else kept. */
  function ToLower(s: string): (r: string)
    ensures |r| == |s|
    ensures forall i :: 0 <= i < |s| ==> r[i] == LowerChar(s[i])
    ensures forall i :: 0 <= i < |r| ==> !('A' <= r[i] <= 'Z')
  {
    seq(|s|, i requires 0 <= i < |s| => LowerChar(s[i]))
  }

  lemma ToLowerIdempotent(s: string)
    ensures ToLower(ToLower(s)) == ToLower(s)
  {
  }

  /** The JavaScript expression `s || fallback` on strings. */
  function OrElse(s: string, fallback: string): (r: string)
    ensures r == s || r == fallback
    ensures r == [] ==> fallback == []
    ensures s != [] ==> r == s
  {
    if s != [] then s else fallback
  }
}

=== FILE: themes.dfy ===
/** The theme index: every theme mapped to the words filed under it, in the
    order the words appear in the word list. */
module ThemeIndexing {
  import opened Seqs
  import opened WordList
  import opened Options

  type ThemeMap = map<string, seq<string>>

  /** The themes occurring in a word list. */
  function ThemesOf(ws: seq<WordEntry>): set<string> {
    set e | e in ws :: e.theme
  }

  /** The words filed under theme t, in list order. */
  function WordsOfTheme(ws: seq<WordEntry>, t: string): seq<string> {
    if ws == [] then []
    else WordsOfTheme(ws[..|ws| - 1], t) + (if ws[|ws| - 1].theme == t then [ws[|ws| - 1].word] else [])
  }

  /** One step of the indexing loop: the word joins the end of its theme's
      bucket, which is created empty the first time the theme is seen. */
  function AddWord(m: ThemeMap, e: WordEntry): (r: ThemeMap)
    ensures r.Keys == m.Keys + {e.theme}
    ensures r[e.theme] == (if e.theme in m then m[e.theme] else []) + [e.word]
    ensures forall t :: t in m && t != e.theme ==> r[t] == m[t]
  {
    var bucket := if e.theme in m then m[e.theme] else [];
    m[e.theme := bucket + [e.word]]
  }

  lemma ThemesOfSnoc(ws: seq<WordEntry>, e: WordEntry)
    ensures ThemesOf(ws + [e]) == ThemesOf(ws) + {e.theme}
  {
    var s := ws + [e];
    forall t | t in ThemesOf(s) ensures t in ThemesOf(ws) + {e.theme} {
      var x :| x in s && x.theme == t;
      var k :| 0 <= k < |s| && s[k] == x;
      if k < |ws| { assert ws[k] == x; }
    }
    forall t | t in ThemesOf(ws) ensures t in ThemesOf(s) {
      var x :| x in ws && x.theme == t;
      assert x in s;
    }
  }

  lemma WordsOfThemeSnoc(ws: seq<WordEntry>, e: WordEntry, t: string)
    ensures WordsOfTheme(ws + [e], t) == WordsOfTheme(ws, t) + (if e.theme == t then [e.word] else [])
  {
    assert (ws + [e])[..|ws|] == ws;
  }

  /** A theme that no word carries has no words. */
  lemma {:induction false} WordsOfThemeAbsent(ws: seq<WordEntry>, t: string)
    requires t !in ThemesOf(ws)
    ensures WordsOfTheme(ws, t) == []
  {
    if ws != [] {
      var init := ws[..|ws| - 1];
      assert ws == init + [ws[|ws| - 1]];
      ThemesOfSnoc(init, ws[|ws| - 1]);
      WordsOfThemeAbsent(init, t);
    }
  }

  /** generateThemes, as a value: the words added one at a time. */
  function ThemeIndex(ws: seq<WordEntry>): ThemeMap {
    if ws == [] then map[] else AddWord(ThemeIndex(ws[..|ws| - 1]), ws[|ws| - 1])
  }

  /** The keys of the index are exactly the themes of the list, and the bucket
      of each theme holds the words of that theme in list order. */
  lemma {:induction false} ThemeIndexSpec(ws: seq<WordEntry>)
    ensures ThemeIndex(ws).Keys == ThemesOf(ws)
    ensures forall t :: t in ThemeIndex(ws) ==> ThemeIndex(ws)[t] == WordsOfTheme(ws, t)
  {
    if ws != [] {
      var init := ws[..|ws| - 1];
      var e := ws[|ws| - 1];
      assert ws == init + [e];
      ThemeIndexSpec(init);
      ThemesOfSnoc(init, e);
      var m0 := ThemeIndex(init);
      var m := AddWord(m0, e);
      forall t | t in m ensures m[t] == WordsOfTheme(ws, t) {
        WordsOfThemeSnoc(init, e, t);
        if t == e.theme && t !in m0 {
          WordsOfThemeAbsent(init, t);
        }
      }
    }
  }

  lemma ThemeIndexSnoc(ws: seq<WordEntry>, e: WordEntry)
    ensures ThemeIndex(ws + [e]) == AddWord(ThemeIndex(ws), e)
  {
    assert (ws + [e])[..|ws|] == ws;
  }

  /** generateThemes: one pass over the words, updating the dictionary in
      place. */
  method GenerateThemes(words: seq<WordEntry>) returns (themeMap: ThemeMap)
    ensures themeMap == ThemeIndex(words)
  {
    themeMap := map[];
    for i := 0 to |words|
      invariant themeMap == ThemeIndex(words[..i])
    {
      var w := words[i];
      ghost var before := themeMap;
      if w.theme !in themeMap {
        themeMap := themeMap[w.theme := []];
      }
      themeMap := themeMap[w.theme := themeMap[w.theme] + [w.word]];
      assert themeMap == AddWord(before, w);
      assert words[..i + 1] == words[..i] + [w];
      ThemeIndexSnoc(words[..i], w);
    }
    assert words[..|words|] == words;
  }

  /** The themes in the order they first appear in the list: the order in
      which the indexing loop creates the keys. */
  function ThemeOrder(ws: seq<WordEntry>): (r: seq<string>)
    ensures Distinct(r)
    ensures forall t :: t in r <==> t in ThemesOf(ws)
  {
    if ws == [] then []
    else
      var init := ws[..|ws| - 1];
      var t := ws[|ws| - 1].theme;
      var o := ThemeOrder(init);
      assert ws == init + [ws[|ws| - 1]];
      if t in o then o else o + [t]
  }

  /** names lists the keys of m, each once (what Object.keys gives). */
  predicate KeyOrder(names: seq<string>, m: ThemeMap) {
    Distinct(names) && (forall t :: t in names ==> t in m) && (forall t :: t in m ==> t in names)
  }

  lemma ThemeOrderIsKeyOrder(ws: seq<WordEntry>)
    ensures KeyOrder(ThemeOrder(ws), ThemeIndex(ws))
  {
    ThemeIndexSpec(ws);
  }

  /** The summed bucket lengths of the themes in order. */
  function Total(order: seq<string>, m: ThemeMap): nat {
    if order == [] then 0
    else Total(order[..|order| - 1], m) + Size(m, order[|order| - 1])
  }

  /** The length of the bucket of t (0 when there is none). */
  function Size(m: ThemeMap, t: string): nat {
    if t in m then |m[t]| else 0
  }

  lemma {:induction false} TotalAgree(order: seq<string>, m1: ThemeMap, m2: ThemeMap)
    requires forall t :: t in order ==> Size(m1, t) == Size(m2, t)
    ensures Total(order, m1) == Total(order, m2)
  {
    if order != [] {
      TotalAgree(order[..|order| - 1], m1, m2);
    }
  }

  /** Lengthening one bucket by one word adds one to the total. */
  lemma {:induction false} TotalBump(order: seq<string>, m: ThemeMap, t: string, w: string)
    requires Distinct(order) && t in order
    requires forall x :: x in order ==> x in m
    ensures Total(order, m[t := m[t] + [w]]) == Total(order, m) + 1
  {
    var m' := m[t := m[t] + [w]];
    var init := order[..|order| - 1];
    var last := order[|order| - 1];
    assert order == init + [last];
    if last == t {
      assert t !in init;
      TotalAgree(init, m, m');
    } else {
      TotalBump(init, m, t, w);
    }
  }

  /** Every word lands in exactly one bucket: the bucket lengths sum to the
      number of words. */
  lemma {:induction false} BucketsPartition(ws: seq<WordEntry>)
    ensures Total(ThemeOrder(ws), ThemeIndex(ws)) == |ws|
  {
    if ws != [] {
      var init := ws[..|ws| - 1];
      var e := ws[|ws| - 1];
      assert ws == init + [e];
      BucketsPartition(init);
      ThemeIndexSpec(init);
      ThemeIndexSpec(ws);
      var o, m := ThemeOrder(init), ThemeIndex(init);
      if e.theme in o {
        TotalBump(o, m, e.theme, e.word);
      } else {
        var m' := AddWord(m, e);
        TotalAgree(o, m, m');
        assert (o + [e.theme])[..|o|] == o;
      }
    }
  }

  /** Each word of the list appears in the bucket of its own theme. */
  lemma {:induction false} WordInItsBucket(ws: seq<WordEntry>, k: nat)
    requires k < |ws|
    ensures ws[k].theme in ThemeIndex(ws) && ws[k].word in ThemeIndex(ws)[ws[k].theme]
  {
    var init := ws[..|ws| - 1];
    assert ws == init + [ws[|ws| - 1]];
    ThemeIndexSnoc(init, ws[|ws| - 1]);
    if k < |init| {
      WordInItsBucket(init, k);
      assert init[k] == ws[k];
    }
  }

  /** The names Object.prototype gives every plain object: looking one of
      them up in an empty `{}` finds an inherited value, not `undefined`. */
  const InheritedNames: set<string> := {
    "constructor", "hasOwnProperty", "isPrototypeOf", "propertyIsEnumerable",
    "toLocaleString", "toString", "valueOf", "__proto__", "__defineGetter__",
    "__defineSetter__", "__lookupGetter__", "__lookupSetter__"
  }

  /** The indexing step as written against a plain object: an own bucket is
      pushed to; an absent name gets a new bucket; an inherited name is
      truthy, so no bucket is made, and calling `push` on the inherited value
      throws (None). */
  function AddWordAsWritten(m: ThemeMap, e: WordEntry): Option<ThemeMap> {
    if e.theme in m then Some(m[e.theme := m[e.theme] + [e.word]])
    else if e.theme in InheritedNames then None
    else Some(m[e.theme := [e.word]])
  }

  function ThemeIndexAsWritten(ws: seq<WordEntry>): Option<ThemeMap> {
    if ws == [] then Some(map[])
    else
      match ThemeIndexAsWritten(ws[..|ws| - 1])
      case None => None
      case Some(m) => AddWordAsWritten(m, ws[|ws| - 1])
  }

  predicate HasInherited(ws: seq<WordEntry>) {
    exists k :: 0 <= k < |ws| && ws[k].theme in InheritedNames
  }

  lemma HasInheritedSnoc(ws: seq<WordEntry>, e: WordEntry)
    ensures HasInherited(ws + [e]) <==> HasInherited(ws) || e.theme in InheritedNames
  {
    var s := ws + [e];
    if HasInherited(ws) {
      var k :| 0 <= k < |ws| && ws[k].theme in InheritedNames;
      assert s[k] == ws[k];
    }
    if HasInherited(s) {
      var k :| 0 <= k < |s| && s[k].theme in InheritedNames;
      if k < |ws| { assert ws[k] == s[k]; }
    }
    assert s[|ws|] == e;
  }

  /** The code as written agrees with the index unless some word's theme is
      an inherited name, and then it throws. */
  lemma {:induction false} AsWrittenAgrees(ws: seq<WordEntry>)
    ensures ThemeIndexAsWritten(ws) == if HasInherited(ws) then None else Some(ThemeIndex(ws))
  {
    if ws != [] {
      var init := ws[..|ws| - 1];
      var e := ws[|ws| - 1];
      assert ws == init + [e];
      AsWrittenAgrees(init);
      HasInheritedSnoc(init, e);
      ThemeIndexSnoc(init, e);
      if !HasInherited(init) && e.theme in InheritedNames {
        ThemeIndexSpec(init);
        assert ThemeIndexAsWritten(init) == Some(ThemeIndex(init));
        assert AddWordAsWritten(ThemeIndex(init), e) == None;
      } else if !HasInherited(init) {
        assert [] + [e.word] == [e.word];
        assert AddWordAsWritten(ThemeIndex(init), e) == Some(AddWord(ThemeIndex(init), e));
      }
    }
  }

  /** A word list whose only theme is "constructor" makes the code as written
      throw, where the index files the word normally. */
  lemma ConstructorThemeThrows()
    ensures var e := WordEntry("apple", "noun", "a fruit", "", "", "constructor");
      && ThemeIndexAsWritten([e]) == None
      && ThemeIndex([e]) == map["constructor" := ["apple"]]
  {
    var e := WordEntry("apple", "noun", "a fruit", "", "", "constructor");
    assert [e][..0] == [];
    assert [] + [e.word] == [e.word];
    assert ThemeIndex([e]) == map[][e.theme := [] + [e.word]];
    assert HasInherited([e]) by { assert [e][0].theme in InheritedNames; }
    AsWrittenAgrees([e]);
  }
}

=== FILE: wordlist.dfy ===
/** The word-list parser: raw text with one `word|partOfSpeech|definition|
    pronunciation|example|theme` record per line becomes a list of word
    entries. */
module WordList {
  import opened Text
  import opened Seqs

  datatype WordEntry = WordEntry(
    word: string,
    partOfSpeech: string,
    definition: string,
    pronunciation: string,
    example: string,
    theme: string)

  const DefaultTheme: string := "general"

  /** What every parsed entry satisfies: a non-empty word, a non-empty theme,
      and no field starting or ending with white space. */
  predicate WellFormed(e: WordEntry) {
    e.word != "" && e.theme != ""
    && IsTrimmed(e.word) && IsTrimmed(e.partOfSpeech) && IsTrimmed(e.definition)
    && IsTrimmed(e.pronunciation) && IsTrimmed(e.example) && IsTrimmed(e.theme)
  }

  /** The pieces of a line between `|` separators, each trimmed. */
  function Fields(line: string): seq<string> {
    TrimAll(Split(line, '|'))
  }

  /** Each piece trimmed. */
  function TrimAll(ps: seq<string>): (r: seq<string>)
    ensures |r| == |ps|
    ensures forall i :: 0 <= i < |ps| ==> r[i] == Trim(ps[i])
  {
    if ps == [] then [] else [Trim(ps[0])] + TrimAll(ps[1..])
  }

  /** The i-th field, or the fallback when it is missing or empty. */
  function FieldAt(parts: seq<string>, i: nat, fallback: string): string {
    if i < |parts| then OrElse(parts[i], fallback) else fallback
  }

  /** The record built from the trimmed fields of one line. */
  function EntryOf(parts: seq<string>): WordEntry {
    WordEntry(FieldAt(parts, 0, ""), FieldAt(parts, 1, ""), FieldAt(parts, 2, ""),
              FieldAt(parts, 3, ""), FieldAt(parts, 4, ""), FieldAt(parts, 5, DefaultTheme))
  }

  /** The lines of the trimmed text, leaving out the blank ones. */
  function NonBlankLines(text: string): seq<string> {
    Filter(Split(Trim(text), '\n'), line => Trim(line) != "")
  }

  /** Every field built from trimmed pieces is trimmed. */
  lemma FieldsTrimmed(line: string)
    ensures EntryOf(Fields(line)).word != "" ==> WellFormed(EntryOf(Fields(line)))
  {
    var pieces := Split(line, '|');
    forall i | 0 <= i < |pieces| ensures IsTrimmed(Fields(line)[i]) {
      TrimIsTrimmed(pieces[i]);
    }
    assert IsTrimmed(DefaultTheme);
  }

  /** What one line contributes: its record, or nothing when the word is empty. */
  function LineEntries(line: string): (r: seq<WordEntry>)
    ensures |r| <= 1
    ensures forall k :: 0 <= k < |r| ==> WellFormed(r[k])
  {
    var e := EntryOf(Fields(line));
    FieldsTrimmed(line);
    if e.word != "" then [e] else []
  }

  /** The records of a list of lines: at most one per line, all well formed. */
  function ParseEntries(lines: seq<string>): (r: seq<WordEntry>)
    ensures |r| <= |lines|
    ensures forall k :: 0 <= k < |r| ==> WellFormed(r[k])
  {
    FlatMapAtMostOne(lines, LineEntries);
    FlatMapAll(lines, LineEntries, WellFormed);
    FlatMap(lines, LineEntries)
  }

  /** parseWordList: one pass over the non-blank lines, appending the record of
      each line whose word is not empty. */
  method ParseWordList(text: string) returns (words: seq<WordEntry>)
    ensures words == ParseEntries(NonBlankLines(text))
    ensures |words| <= |NonBlankLines(text)|
    ensures forall k :: 0 <= k < |words| ==> WellFormed(words[k])
  {
    var lines := NonBlankLines(text);
    words := [];
    var i := 0;
    while i < |lines|
      invariant 0 <= i <= |lines|
      invariant words == FlatMap(lines[..i], LineEntries)
    {
      var parts := Fields(lines[i]);
      var entry := EntryOf(parts);
      if entry.word != "" {
        words := words + [entry];
      }
      assert lines[..i + 1][..i] == lines[..i];
      i := i + 1;
    }
    assert lines[..i] == lines;
  }

  /** Parsing is line by line: the records of a concatenation of line lists
      are the concatenation of their records, so records keep line order. */
  lemma ParseEntriesAppend(a: seq<string>, b: seq<string>)
    ensures ParseEntries(a + b) == ParseEntries(a) + ParseEntries(b)
  {
    FlatMapAppend(a, b, LineEntries);
  }

  /** The fields of one record, as the source reads them: each field is the
      trimmed piece at its position; a missing or empty piece gives "", except
      the theme, which then is "general"; the line yields a record exactly when
      its first piece is not blank. */
  lemma LineRecord(line: string)
    ensures var pieces := Split(line, '|');
      && (|LineEntries(line)| == 1 <==> Trim(pieces[0]) != "")
      && (LineEntries(line) != [] ==>
            var e := LineEntries(line)[0];
            && e.word == Trim(pieces[0])
            && e.partOfSpeech == (if |pieces| > 1 then Trim(pieces[1]) else "")
            && e.definition == (if |pieces| > 2 then Trim(pieces[2]) else "")
            && e.pronunciation == (if |pieces| > 3 then Trim(pieces[3]) else "")
            && e.example == (if |pieces| > 4 then Trim(pieces[4]) else "")
            && e.theme == (if |pieces| > 5 && Trim(pieces[5]) != "" then Trim(pieces[5])
                           else DefaultTheme))
  {
  }

  /** Fields after the sixth are ignored. */
  lemma ExtraFieldsIgnored(fields: seq<string>, extra: seq<string>)
    requires |fields| == 6
    requires forall i :: 0 <= i < |fields| ==> '|' !in fields[i]
    requires forall i :: 0 <= i < |extra| ==> '|' !in extra[i]
    ensures LineEntries(Join(fields + extra, '|')) == LineEntries(Join(fields, '|'))
  {
    var all := fields + extra;
    assert forall i :: 0 <= i < |all| ==> '|' !in all[i] by {
      forall i | 0 <= i < |all| ensures '|' !in all[i] {
        if i < 6 { assert all[i] == fields[i]; } else { assert all[i] == extra[i - 6]; }
      }
    }
    SplitJoin(all, '|');
    SplitJoin(fields, '|');
    var p, q := Fields(Join(all, '|')), Fields(Join(fields, '|'));
    assert forall i :: 0 <= i < 6 ==> p[i] == q[i];
  }

  /** When every line has a non-blank first field, there is exactly one record
      per line, the k-th record coming from the k-th line. */
  lemma OneRecordPerLine(lines: seq<string>)
    requires forall k :: 0 <= k < |lines| ==> Trim(Split(lines[k], '|')[0]) != ""
    ensures |ParseEntries(lines)| == |lines|
    ensures forall k :: 0 <= k < |lines| ==> ParseEntries(lines)[k] == EntryOf(Fields(lines[k]))
  {
    forall x | x in lines ensures |LineEntries(x)| == 1 {
      var k :| 0 <= k < |lines| && lines[k] == x;
    }
    FlatMapExactlyOne(lines, LineEntries);
  }

  /** The line a well-formed record is written as. */
  function RecordLine(e: WordEntry): string {
    Join([e.word, e.partOfSpeech, e.definition, e.pronunciation, e.example, e.theme], '|')
  }

  /** The text a list of records is written as: one line each. */
  function Serialize(entries: seq<WordEntry>): string {
    Join(seq(|entries|, k requires 0 <= k < |entries| => RecordLine(entries[k])), '\n')
  }

  /** A record's fields hold neither separator. */
  predicate Writable(e: WordEntry) {
    var fs := [e.word, e.partOfSpeech, e.definition, e.pronunciation, e.example, e.theme];
    forall i :: 0 <= i < 6 ==> '|' !in fs[i] && '\n' !in fs[i]
  }

  lemma {:induction false} JoinFirst(parts: seq<string>, sep: char)
    requires |parts| >= 1 && parts[0] != []
    ensures Join(parts, sep) != [] && Join(parts, sep)[0] == parts[0][0]
  {
  }

  lemma {:induction false} JoinLast(parts: seq<string>, sep: char)
    requires |parts| >= 1 && parts[|parts| - 1] != []
    ensures Join(parts, sep) != []
    ensures Join(parts, sep)[|Join(parts, sep)| - 1] == parts[|parts| - 1][|parts[|parts| - 1]| - 1]
  {
    if |parts| > 1 {
      JoinLast(parts[1..], sep);
    }
  }

  /** A well-formed record survives being written as a line and parsed back. */
  lemma RecordLineRoundTrip(e: WordEntry)
    requires WellFormed(e) && Writable(e)
    ensures LineEntries(RecordLine(e)) == [e]
    ensures IsTrimmed(RecordLine(e)) && RecordLine(e) != []
    ensures '\n' !in RecordLine(e)
  {
    var fs := [e.word, e.partOfSpeech, e.definition, e.pronunciation, e.example, e.theme];
    SplitJoin(fs, '|');
    var p := Fields(RecordLine(e));
    forall i | 0 <= i < 6 ensures p[i] == fs[i] {
      TrimmedIsFixed(fs[i]);
    }
    JoinFirst(fs, '|');
    JoinLast(fs, '|');
    JoinFree(fs, '|', '\n');
  }

  lemma ParseLinesOfRecords(entries: seq<WordEntry>)
    requires forall k :: 0 <= k < |entries| ==> WellFormed(entries[k]) && Writable(entries[k])
    ensures ParseEntries(seq(|entries|, k requires 0 <= k < |entries| => RecordLine(entries[k])))
            == entries
  {
    var lines := seq(|entries|, k requires 0 <= k < |entries| => RecordLine(entries[k]));
    forall x | x in lines ensures |LineEntries(x)| == 1 {
      var k :| 0 <= k < |lines| && lines[k] == x;
      RecordLineRoundTrip(entries[k]);
    }
    FlatMapExactlyOne(lines, LineEntries);
    forall k | 0 <= k < |entries| ensures ParseEntries(lines)[k] == entries[k] {
      RecordLineRoundTrip(entries[k]);
    }
  }

  /** Writing well-formed records one per line and parsing the text gives the
      same records back, in the same order. */
  lemma SerializeRoundTrip(entries: seq<WordEntry>)
    requires forall k :: 0 <= k < |entries| ==> WellFormed(entries[k]) && Writable(entries[k])
    ensures ParseEntries(NonBlankLines(Serialize(entries))) == entries
  {
    var lines := seq(|entries|, k requires 0 <= k < |entries| => RecordLine(entries[k]));
    var text := Serialize(entries);
    if entries == [] {
      assert NonBlankLines(text) == [];
    } else {
      forall k | 0 <= k < |lines|
        ensures IsTrimmed(lines[k]) && lines[k] != [] && '\n' !in lines[k]
      {
        RecordLineRoundTrip(entries[k]);
      }
      JoinFirst(lines, '\n');
      JoinLast(lines, '\n');
      assert IsTrimmed(text);
      TrimmedIsFixed(text);
      SplitJoin(lines, '\n');
      forall k | 0 <= k < |lines| ensures Trim(lines[k]) != "" {
        TrimmedIsFixed(lines[k]);
      }
      FilterKeepsAll(lines, line => Trim(line) != "");
      ParseLinesOfRecords(entries);
    }
  }
}
